=== FILE: README.md ===
# Configuration entity loader: rulesets and repositories

This project is a Dafny model of the `internal/entity` core of a declarative
GitHub-organisation manager. That core covers:

- how a directory tree of YAML documents becomes validated **ruleset** and
  **repository** entities;
- how repository ownership is inferred from where a file sits in the tree;
- how a repository name defined twice is detected;
- how two sets of branch-protection rule parameters are compared.

The model is functional:

- The file system is an immutable tree (`FileSystem.Node`). A directory can
  refuse to be listed.
- Reading and decoding one YAML file is an abstract outcome
  (`FileSystem.Decoded`): unreadable, malformed, or a decoded document.
- Each validator is a pure function. It returns the first failing check as a
  tagged error.
- Each directory reader is a fold that threads the result map, the error
  list and the warning list.

Modules, following the Go files:

| module | file | models |
|---|---|---|
| `Wrappers` | wrappers.dfy | `Option` (Go's nil), `Outcome` (an `error` return), `Result` (a `(value, error)` return) |
| `Checks` | checks.dfy | the "first offending element" scan behind the rule-type, bypass, include and team/user reference loops |
| `Paths` | paths.dfy | paths as component lists, `filepath.Join/Base/Dir/Ext`, `strings.HasSuffix` |
| `FileSystem` | filesystem.dfy | the `billy.Filesystem` tree; `Stat`, the lookup that stands in for `utils.Exists`; `fs.ReadDir`; `utils.ReadFile` + `yaml.Unmarshal` (`Load`) |
| `RuleSetCompare` | ruleset_parameters.dfy | `RuleSetParameters`, `CompareRulesetParameters` |
| `Entities` | entity.dfy | the `apiVersion`/`kind`/`name` header and its checks |
| `Scans` | scans.dfy | what a flat directory loop keeps: one error per rejected entry, each accepted name holding the last value accepted under it |
| `RuleSets` | ruleset.dfy | `RuleSetDefinition`, `RuleSet.Validate`, `ReadRuleSetDirectory` |
| `Repositories` | repository.dfy | `Repository`, `RepositoryRuleSet`, `Repository.Validate` |
| `LoaderState` | loader_state.dfy | the map, error list and warning list `ReadRepositories` threads, and where a loaded repository may sit |
| `ArchiveScan` | archive_scan.dfy | the archive loop of `ReadRepositories` |
| `TeamFiles` | team_files.dfy | one repository file met by `recursiveReadRepositories` |
| `TeamVisits` | team_visits.dfy | the files and unlistable directories the team walk meets, in order, and what acting on them leaves |
| `TeamWalk` | team_walk.dfy | `recursiveReadRepositories` and the loop over the team root |
| `RepositoryLoader` | repository_reader.dfy | `ReadRepositories` as a whole |

## Behaviour worth knowing

Each of these follows from the Go code alone:

- **Owner.** `recursiveReadRepositories` passes `sube.Name()` as the team
  name on every recursive call (internal/entity/repository.go:146). A
  repository is therefore owned by the directory that directly contains its
  file, not by the top-level team directory (`LoaderState.Placed`,
  `TeamFiles.OwnedBelow`).
- **Enforcement literal.** The comment at
  internal/entity/entity_ruleset.go:60 says `disabled`, but the checks accept
  `"disable"` (entity_ruleset.go:179, repository.go:225).
- **Hidden files.** The archive loop skips every hidden entry
  (repository.go:83-89). The team walk skips only hidden *directories*
  (repository.go:145); its file filter is `filepath.Ext(name) == ".yaml"`
  (line 150). A file such as `.x.yaml` has extension `.yaml` and stem `.x`,
  so it is read, and it is stored when its document declares the name `.x`,
  passes the other checks and the sanitizer leaves `.x` unchanged
  (`TeamFiles.HiddenRepositoryFileIsRead`). Only a file named exactly
  `.yaml` always fails: its stem is empty, and an empty name never validates
  (`TeamFiles.BareExtensionFileRejected`). Directories directly under the
  team root are walked even when hidden (repository.go:124-129).
- **Archive depth.** The archive loop reads only the archive directory's
  direct entries (repository.go:82-105).
- **Duplicates.** In the archive, line 102 would let a later file of the
  same name replace an earlier one, but that cannot happen on a real file
  system: only `k.yaml` can declare the name `k`, and the names in one
  directory are distinct. In the team tree, a duplicate leaves the earlier
  entry, archived or not, in the map and adds one error (lines 159-164).
- **Ruleset directory.** The ruleset directory has no extension filter
  (entity_ruleset.go:130-149). A later valid file with an already-seen name
  replaces the earlier one.
- **Malformed files.** A file that does not decode adds `yaml.Unmarshal`'s
  error unchanged (repository.go:48-50, entity_ruleset.go:95-97), and that
  error does not say which file it came from.
- **Probe failures.** When the probe of the team root fails, the archive
  results are returned with that error added (repository.go:108-111); when
  the root cannot be listed, the map is nil (lines 118-121).

## Model

| member | source | states |
|---|---|---|
| Checks.FirstFailing | internal/entity/entity_ruleset.go:173-177 | a fail-fast loop over a list stops at the first element failing its test, and every earlier element passes; it runs to the end exactly when every element passes |
| Paths.Join | internal/entity/entity_ruleset.go:138 | joining a directory and an entry name gives a path whose `Base` is the name and whose `Dir` is the directory; the directory is a strict prefix |
| Paths.Ext | internal/entity/entity_ruleset.go:168-169 | `filepath.Ext` returns a suffix of its input that is empty or starts with the last '.', contains no further '.' or '/', and is empty only when the final path element has no '.' |
| Paths.Stem | internal/entity/entity_ruleset.go:169 | the name a document must declare is its file name minus `Ext`, and putting `Ext` back gives the file name |
| Paths.ExtOfYamlName | internal/entity/repository.go:150 | a name ending in ".yaml" has extension ".yaml", and its stem is the name without that suffix |
| Paths.YamlSuffixIffExt | internal/entity/repository.go:90 | the archive's `strings.HasSuffix(name, ".yaml")` filter and the team walk's `filepath.Ext(name) == ".yaml"` filter (line 150) accept the same names |
| Paths.YamlFileName | internal/entity/repository.go:192-193 | a ".yaml" file whose stem is `k` is named exactly `k` + ".yaml" |
| FileSystem.Stat | internal/entity/repository.go:70-75 | the lookup standing in for `utils.Exists`: the empty path finds the root; a path through a file, or to a name no listable directory on the way holds, is absent; descending through an unlistable directory fails the probe; a node it finds carries the last path component as its name |
| FileSystem.StatDescends | internal/entity/repository.go:70-75 | below a directory that can be listed, the lookup continues in the first entry named like the path's next component |
| FileSystem.StatChild | internal/entity/repository.go:126 | below a directory the lookup finds and can list, joining an entry's name to the directory's path finds that entry (the first of its name), so every entry reachable through listable directories is found |
| FileSystem.Load | internal/entity/repository.go:41-51 | reading and decoding a file succeeds exactly when the content decodes, yielding that document; a read failure and a decode failure are distinct errors (the model labels both with the file's path, although Go's decode error does not name the file) |
| FileSystem.ReadDir | internal/entity/repository.go:118-121 | listing succeeds exactly when the path leads to a directory that can be listed, so the caller's listing error is raised exactly otherwise; a listing is that directory's entries |
| FileSystem.ListedNamesFound | internal/entity/repository.go:139-146 | every name a successful listing returns is found by a lookup of the listed path joined with that name, so the walk never descends into a path the lookup would call missing |
| RuleSetCompare.ParseRuleType | internal/entity/entity_ruleset.go:174 | a rule type tag is recognised exactly when it is the spelling of one of the three rule types |
| RuleSetCompare.ParseRuleTypeName | internal/entity/entity_ruleset.go:174 | spelling a rule type and reading it back gives the same rule type |
| RuleSetCompare.CompareRulesetParameters | internal/entity/entity_ruleset.go:25-56 | required_signatures always compares equal; pull_request compares equal iff the five review fields agree; required_status_checks compares equal iff the check lists are equivalent and the strict flags agree; any other tag gives false |
| RuleSetCompare.CompareIsTypedEquivalence | internal/entity/entity_ruleset.go:25-56 | the string dispatch equals a per-rule-type equivalence over the closed enumeration, and fails closed on an unknown tag |
| RuleSetCompare.PullRequestIgnoresStatusChecks | internal/entity/entity_ruleset.go:29-45 | changing the status check fields on either side never changes a pull_request comparison |
| RuleSetCompare.StatusChecksIgnorePullRequestFields | internal/entity/entity_ruleset.go:46-53 | changing the five review fields on either side never changes a required_status_checks comparison |
| RuleSetCompare.PullRequestSingleFieldChange | internal/entity/entity_ruleset.go:30-45 | pull_request parameters compare equal to themselves, and changing any one of the five review fields makes them compare unequal |
| RuleSetCompare.StrictFlagChange | internal/entity/entity_ruleset.go:50-52 | status check parameters whose strict flags differ never compare equal, whatever the check lists |
| Entities.ValidateHeader | internal/entity/entity_ruleset.go:156-171 | the header passes iff the version is "v1", the kind is the expected one, and the name is non-empty and equals the file's stem; otherwise the first failing check in that order is reported, with the path (or the base name for a name mismatch) |
| RuleSets.Validate | internal/entity/entity_ruleset.go:154-195 | a ruleset passes iff the header is valid, every rule type is known, enforcement is disable/active/evaluate, every bypass mode is always/pull_request, and every include starting with '~' is ~DEFAULT_BRANCH or ~ALL; a failure names the first failing check in the order the Go method makes them and its first offending element |
| RuleSets.ClassifyRuleSetEntry | internal/entity/entity_ruleset.go:130-149 | an entry is skipped iff it is a directory or hidden; it is accepted iff it is a visible file decoding to a ruleset valid under the file's stem, which is then stored under its declared name; a rejection carries exactly the read or decode error of `Load` for the file's path, or exactly the error `RuleSet.Validate` reports for its document (the offending value and the file's base name) |
| RuleSets.Outcomes | internal/entity/entity_ruleset.go:130-149 | every ruleset the loop accepts declares exactly the name its file name gives it |
| Scans.AcceptStep | internal/entity/entity_ruleset.go:146 | storing an accepted value under its key keeps the map equal to "each accepted key holds the last value accepted under it, and nothing else is stored" (also repository.go:102) |
| Scans.KeepStep | internal/entity/entity_ruleset.go:131-144 | a skipped or rejected entry leaves that description of the map true one entry further (also repository.go:83-99) |
| Scans.RejectionsStep | internal/entity/entity_ruleset.go:140-144 | one more entry appends its error to the error list exactly when it is a rejection (also repository.go:95-99) |
| Scans.StoredWasAccepted | internal/entity/entity_ruleset.go:146 | every value in the final map was accepted under its key by some entry |
| RuleSets.ScanRuleSetEntries | internal/entity/entity_ruleset.go:130-150 | the errors are those of the rejected entries, one each, in listing order; a name is a key iff some entry was accepted under it, and it holds the last such ruleset; every stored ruleset is valid and keyed by its own name |
| RuleSets.ReadRuleSetDirectory | internal/entity/entity_ruleset.go:109-152 | there are never any warnings; a missing directory gives an empty map and no error; a failed probe or listing gives exactly that one error; otherwise the result is the scan of the listing |
| Repositories.NewRepository | internal/entity/repository.go:41-54 | a decoded document becomes a repository with the document's header, spec, archived flag and rename target, and no owner yet |
| Repositories.NewRepositoryDirectory | internal/entity/repository.go:52 | the directory `NewRepository` records is the one the file was read from: that directory followed by the file's base name is the file's path |
| Repositories.FirstMissing | internal/entity/repository.go:197-218 | a reference loop finds nothing iff every name is a key of the table, and otherwise reports the first name that is not |
| Repositories.CheckEmbeddedRuleSets | internal/entity/repository.go:220-232 | the embedded-ruleset loop passes iff every ruleset is named, has a valid enforcement, and no two share a name; otherwise it reports the first ruleset at fault and why (unnamed, bad enforcement, or a name seen earlier) |
| Repositories.Validate | internal/entity/repository.go:178-239 | a repository passes iff the header is valid (kind "Repository"), all writers and readers are teams, all external readers and writers are external users, the embedded rulesets are valid, and the sanitizer leaves the name unchanged; a failure names the first failing check in that order and its first offending element |
| Repositories.ValidityIgnoresPlacement | internal/entity/repository.go:101 | validity does not depend on `archived`, `owner` or `directoryPath`, so setting them after validation (lines 101 and 167-168) keeps a repository valid |
| ArchiveScan.ClassifyArchiveEntry | internal/entity/repository.go:82-104 | an entry is passed over iff it is a directory, hidden, or lacks the ".yaml" suffix; it is accepted iff it is a visible ".yaml" file whose document is valid under the file's stem, and then the stored value is exactly that document read from its path with `archived` set, under its name, the file being named that name + ".yaml"; a rejection is exactly the read or decode error of `Load` for that path, or exactly the error `Repository.Validate` reports |
| ArchiveScan.ScanArchive | internal/entity/repository.go:82-105 | the archive loop's errors are exactly the rejections' errors, one each in listing order; a name is a key iff some entry was accepted under it, holding the last repository accepted under it; the warnings are exactly one per visible file without the ".yaml" suffix, in listing order |
| ArchiveScan.ScanArchiveFrom | internal/entity/repository.go:82-105 | from any position of the listing on, given the map, errors and warnings the earlier entries left, the loop ends in exactly the archive loop's outcome for the whole listing |
| ArchiveScan.ArchiveStored | internal/entity/repository.go:100-102 | everything the archive loop stores is archived, unowned, valid under its key and placed in the archive directory |
| ArchiveScan.ArchivePhase | internal/entity/repository.go:69-106 | a missing archive directory gives no repositories, errors or warnings; a listed one gives exactly the archive loop's description of its listing; everything stored is archived and placed |
| TeamFiles.IsRepositoryFile | internal/entity/repository.go:150 | an entry is read as a repository definition exactly when it is a file, its name ends in ".yaml" (which is what `filepath.Ext(name) == ".yaml"` amounts to) and it is not "team.yaml" |
| TeamFiles.ExistingLocation | internal/entity/repository.go:160-163 | the earlier definition's location in a duplicate error ends in the repository's name, and lies in the archive directory when the holder has no owner and in a directory named after the owner otherwise |
| TeamFiles.AddTeamRepository | internal/entity/repository.go:158-170 | a name already in the map leaves the map unchanged and adds exactly one error naming the new file and the earlier location; a new name is inserted, owned by the current directory's name and not archived, and every other entry is unchanged |
| TeamFiles.ReadTeamFile | internal/entity/repository.go:150-172 | an unreadable or undecodable file adds exactly its IO error; a document invalid under the file's stem adds exactly `Repository.Validate`'s error; a valid one whose name is taken adds exactly the duplicate error naming the file and the holder's location; otherwise the map gains exactly that document read from its path, owned by the current team name and not archived; the map never changes otherwise and no warning is added |
| TeamFiles.HiddenRepositoryFileIsRead | internal/entity/repository.go:145-150 | a file named ".x.yaml" is hidden, yet it passes the walk's file filter and a valid document named ".x" in it is stored |
| TeamFiles.BareExtensionFileRejected | internal/entity/repository.go:150-156 | a file named exactly ".yaml" never adds a repository and always adds exactly one error |
| TeamVisits.ReplayAppend | internal/entity/repository.go:144-149 | acting on the visits of two consecutive entries is acting on the first's, then on the second's, as the shared map threads through the loop |
| TeamVisits.ReplaySpec | internal/entity/repository.go:135-175 | acting on any sequence of walk visits leaves the warnings untouched, appends exactly one error per failing visit in order (listing, read, decode, validation, or duplicate naming the holder), and stores exactly the names held before or offered by a visit with a valid document, a new name holding the repository of its first such visit |
| TeamVisits.ReplayedKeys | internal/entity/repository.go:159-169 | after the visits, a name is stored iff it was stored before or some visit offers a valid document under it; earlier entries are unchanged; a new name holds the first offering visit's repository |
| TeamWalk.WalkStepTrans | internal/entity/repository.go:144-149 | the guarantees of walk steps compose across consecutive entries |
| TeamWalk.WalkStepOfSubdirectory | internal/entity/repository.go:145-146 | what the walk of a subdirectory stores lies strictly below its parent and is owned by its own enclosing directory |
| TeamWalk.WalkTeamDir | internal/entity/repository.go:135-175 | a directory that cannot be listed adds exactly its listing error and nothing else; in every case the walk equals acting on the directory's visits in order, keeps every existing entry (first wins), never warns, and stores new repositories valid, not archived and owned by the directory containing their file |
| TeamWalk.WalkTeamEntries | internal/entity/repository.go:144-175 | the loop over one directory equals acting on the visits of its entries in order: a visible subdirectory's own walk under its own name, one visit per ".yaml" file other than "team.yaml", nothing for anything else |
| TeamWalk.SkippedTeamEntry | internal/entity/repository.go:145-150 | hidden subdirectories, "team.yaml", and files whose extension is not ".yaml" leave the walk's state untouched |
| TeamWalk.WalkTeams | internal/entity/repository.go:124-130 | walking the team root equals acting on the visits of each directory directly under it, hidden or not, in order; it never warns, keeps every existing entry, and stores new repositories valid, not archived, owned, and strictly below the root |
| TeamWalk.TeamRootFileIgnored | internal/entity/repository.go:125 | a file directly under the team root is ignored |
| TeamWalk.WalkedNodeIsFound | internal/entity/repository.go:139 | the directory the walk descends into through an entry is the node a lookup of the joined path finds, and its listing is what `fs.ReadDir` of that path returns, as long as no earlier entry has the same name |
| RepositoryLoader.TeamPhase | internal/entity/repository.go:107-132 | a failed probe of the team root returns the archive results with exactly that error added; a missing root returns them unchanged; a root that cannot be listed gives a nil map and adds exactly that error; a listed root gives exactly the replay of its visits on the archive results; archived entries are kept, exactly the archive's entries are archived, and the rest lie below the root |
| RepositoryLoader.ReadRepositories | internal/entity/repository.go:64-133 | a failed probe of the archive directory gives an empty map and exactly that error; an archive directory that cannot be listed gives a nil map and exactly that error; otherwise the result is phase two applied to the archive scan's results; every stored repository is valid and placed; the map is nil iff one of the two directories cannot be listed; archived repositories are never replaced and are exactly the archive's entries |

## Left out

- YAML decoding (`yaml.Unmarshal` in `NewRuleSet`/`NewRepository`) is library behaviour. Each file's content is an abstract `Decoded` outcome chosen by the caller of the model.
- The `billy` file system and `utils.ReadFile` are replaced by the in-memory `Node` tree. The body of `utils.Exists` is not part of this model: `FileSystem.Stat` stands in for it, assuming that the probe fails only when a directory on the way cannot be listed and that a path through a file is absent.
- Go's path cleaning (`filepath.Join` removing `..`, duplicate separators and so on) is not modelled. Paths are lists of components, and entry names contain no separator.
- `utils.GithubAnsiString` is not part of this model. It is the `sanitize` parameter of `Repositories.Context`.
- `StringArrayEquivalent` is not part of this model. It is the `sameChecks` parameter; nothing is assumed about it, not even reflexivity.
- `teams` and `externalUsers` are reduced to their key sets, because only key presence is consulted.
- Exact error and warning text (`fmt.Errorf`) is not modelled. Errors are tagged values that carry the offending name and path (for a decode failure the path is the model's own label, see `FileSystem.Load` below); the earlier location in a duplicate error is `archive/name` or `owner/name`, as at internal/entity/repository.go:160-163.
- FileSystem.Load: the path carried by `DecodeFailed` is the model's own label. `NewRuleSet` and `NewRepository` return `yaml.Unmarshal`'s error unchanged (internal/entity/entity_ruleset.go:95-97, internal/entity/repository.go:48-50), and that error does not name the file.
- Go runtime panics on empty strings (`on[0]`, `Name()[0]`) are preconditions rather than behaviour.
- `RuleSets.Validate`: requires every include entry to be non-empty, although `RuleSet.Validate` reaches `on[0]` only when every earlier check has passed.
- `RuleSets.ReadRuleSetDirectory`: requires every listed entry to have a non-empty name, although `ReadRuleSetDirectory` reads `Name()[0]` only for non-directories. It also requires every decoded ruleset's include entries to be non-empty, for the reason given for `RuleSets.Validate`.
- `RepositoryLoader.ReadRepositories`: requires a well-formed tree (no empty entry names anywhere), which is more than the entries `ReadRepositories` and `recursiveReadRepositories` index. The team-walk members in `TeamWalk` and `TeamVisits` require the same of the directory they walk.
- Go's `int` width for `requiredApprovingReviewCount` is not modelled, since the value is only compared for equality.
- `IsPublic`, `AllowAutoMerge`, `DeleteBranchOnMerge`, `AllowUpdateBranch`, `RenameTo` and the `exclude` branch list are carried but never checked, as in the Go code. Embedded ruleset definitions are checked only for their name and enforcement, as `Repository.Validate` does.
- The team walk descends into the directory node it is listing, where `recursiveReadRepositories` lists the joined path again. The two agree whenever the entries of a directory have distinct names (`TeamWalk.WalkedNodeIsFound`); a directory holding two entries of the same name is not modelled.
- Listing order is whatever the file system returns. The model takes it as given by the tree's entry order and does not sort it.
- `internal/entity/entity_test.go` exercises `parseEntity`, which is not part of this model. It covers only YAML parsing and missing files.

=== FILE: archive_scan.dfy ===
/** Phase one of `ReadRepositories`: the flat scan of the archive directory.
    Directories and hidden files are ignored, a file without the ".yaml"
    suffix is warned about, every other file is read, validated, marked
    archived and stored under its name (a later file of the same name
    replacing an earlier one). */
module ArchiveScan {
  import opened Wrappers
  import opened Paths
  import opened FileSystem
  import opened Entities
  import opened Repositories
  import opened Scans
  import opened LoaderState

  predicate NamedEntries(es: seq<Tree>)
  {
    forall i :: 0 <= i < |es| ==> es[i].name != ""
  }

  /** A visible file whose name lacks the ".yaml" suffix: warned about, then skipped. */
  predicate MissingExtension(e: Tree)
    requires e.name != ""
  {
    e.File? && !IsHidden(e.name) && !HasSuffix(e.name, YamlExtension)
  }

  /** One warning per visible file without the ".yaml" suffix, in listing order. */
  function ArchiveWarnings(es: seq<Tree>): seq<Warning>
    requires NamedEntries(es)
  {
    if |es| == 0 then []
    else
      var e := es[|es| - 1];
      ArchiveWarnings(es[..|es| - 1]) + (if MissingExtension(e) then [MissingYamlExtension(e.name)] else [])
  }

  /** One iteration of the archive loop. An entry is accepted exactly when it
      is a visible ".yaml" file holding a document valid under the file's
      stem; the stored repository is that document read from its path and
      marked archived. A rejection carries the read, decode or validation
      error of that file. */
  function ClassifyArchiveEntry(archivedDir: Path, ctx: Context, e: Tree): (r: EntryOutcome<Repository, RepositoryLoadError>)
    requires e.name != ""
    ensures r.Skipped? <==> e.Directory? || IsHidden(e.name) || !HasSuffix(e.name, YamlExtension)
    ensures r.Accepted? <==>
      && e.File? && !IsHidden(e.name) && HasSuffix(e.name, YamlExtension) && e.content.Decoded?
      && ValidRepository(NewRepository(e.content.value, Join(archivedDir, e.name)), Stem(e.name), ctx)
    ensures r.Accepted? ==>
      && e.content.Decoded?
      && r.value == NewRepository(e.content.value, Join(archivedDir, e.name)).(archived := true)
      && r.key == r.value.header.name && e.name == r.key + YamlExtension
      && Placed(r.value, r.key, archivedDir, ctx) && r.value.archived
    ensures r.Rejected? ==>
      var path := Join(archivedDir, e.name);
      match r.error
      case RepositoryIo(io) => Load(path, e.content) == Failure(io)
      case RepositoryRejected(err) =>
        e.content.Decoded? && Validate(NewRepository(e.content.value, path), path, ctx) == Fail(err)
      case DefinedTwice(_, _, _) => false
  {
    if e.Directory? || IsHidden(e.name) || !HasSuffix(e.name, YamlExtension) then Skipped
    else
      var path := Join(archivedDir, e.name);
      match Load(path, e.content)
      case Failure(io) => Rejected(RepositoryIo(io))
      case Success(doc) =>
        var repo := NewRepository(doc, path);
        match Validate(repo, path, ctx)
        case Fail(err) => Rejected(RepositoryRejected(err))
        case Pass =>
          YamlSuffixIffExt(e.name);
          YamlFileName(e.name, repo.header.name);
          Accepted(repo.header.name, repo.(archived := true))
  }

  /** The outcome of every entry of the archive listing, in listing order. */
  function ArchiveOutcomes(archivedDir: Path, ctx: Context, es: seq<Tree>): (os: seq<EntryOutcome<Repository, RepositoryLoadError>>)
    requires NamedEntries(es)
    ensures |os| == |es|
    ensures forall i :: 0 <= i < |es| ==> os[i] == ClassifyArchiveEntry(archivedDir, ctx, es[i])
  {
    seq(|es|, i requires 0 <= i < |es| => ClassifyArchiveEntry(archivedDir, ctx, es[i]))
  }

  /** `s` is what the archive loop leaves after the listing `es`: one error
      per rejected entry in listing order, each accepted name a key holding
      the last repository accepted under it and nothing else stored, and one
      warning per visible file without the ".yaml" suffix. */
  ghost predicate ArchiveScanned(archivedDir: Path, ctx: Context, es: seq<Tree>, s: Scan)
    requires NamedEntries(es)
  {
    var os := ArchiveOutcomes(archivedDir, ctx, es);
    && s.errors == Rejections(os)
    && ScanState(os, |os|, s.repos)
    && s.warnings == ArchiveWarnings(es)
  }

  /** The archive loop from entry `i` on, given the state the entries before
      `i` left behind. */
  function ScanArchiveFrom(es: seq<Tree>, i: nat, archivedDir: Path, ctx: Context, acc: Scan): (r: Scan)
    requires NamedEntries(es) && i <= |es|
    requires acc.errors == Rejections(ArchiveOutcomes(archivedDir, ctx, es)[..i])
    requires ScanState(ArchiveOutcomes(archivedDir, ctx, es), i, acc.repos)
    requires acc.warnings == ArchiveWarnings(es[..i])
    ensures ArchiveScanned(archivedDir, ctx, es, r)
    decreases |es| - i
  {
    var os := ArchiveOutcomes(archivedDir, ctx, es);
    if i == |es| then
      assert es[..i] == es;
      assert os[..i] == os;
      acc
    else
      var e := es[i];
      var o := ClassifyArchiveEntry(archivedDir, ctx, e);
      assert o == os[i];
      RejectionsStep(os, i);
      assert es[..i + 1][..i] == es[..i];
      var warnings := acc.warnings + (if MissingExtension(e) then [MissingYamlExtension(e.name)] else []);
      if o.Accepted? then
        AcceptStep(os, i, acc.repos);
        ScanArchiveFrom(es, i + 1, archivedDir, ctx, Scan(acc.repos[o.key := o.value], acc.errors, warnings))
      else
        KeepStep(os, i, acc.repos);
        var errors := acc.errors + (if o.Rejected? then [o.error] else []);
        ScanArchiveFrom(es, i + 1, archivedDir, ctx, Scan(acc.repos, errors, warnings))
  }

  /** The archive loop over a whole listing, from an empty map and no errors
      or warnings. */
  function ScanArchive(es: seq<Tree>, archivedDir: Path, ctx: Context): (r: Scan)
    requires NamedEntries(es)
    ensures ArchiveScanned(archivedDir, ctx, es, r)
  {
    assert es[..0] == [];
    assert ArchiveOutcomes(archivedDir, ctx, es)[..0] == [];
    ScanArchiveFrom(es, 0, archivedDir, ctx, EmptyScan)
  }

  /** Everything the archive loop stores is archived and placed in the
      archive directory under its own valid name. */
  lemma ArchiveStored(archivedDir: Path, ctx: Context, es: seq<Tree>, s: Scan)
    requires NamedEntries(es) && ArchiveScanned(archivedDir, ctx, es, s)
    ensures Resolved(s.repos, archivedDir, ctx) && AllArchived(s.repos)
  {
    var os := ArchiveOutcomes(archivedDir, ctx, es);
    forall k | k in s.repos
      ensures Placed(s.repos[k], k, archivedDir, ctx) && s.repos[k].archived
    {
      StoredWasAccepted(os, s.repos, k);
      var j :| AcceptedAs(os, j, k) && os[j].value == s.repos[k];
      assert os[j] == ClassifyArchiveEntry(archivedDir, ctx, es[j]);
    }
  }

  /** Phase one as a whole: nothing when the archive directory cannot be
      listed (the caller reports why), otherwise the loop over its listing. */
  function ArchivePhase(fs: Tree, archivedDir: Path, ctx: Context): (r: Scan)
    requires WellFormed(fs)
    ensures ReadDir(fs, archivedDir).None? ==> r == EmptyScan
    ensures Resolved(r.repos, archivedDir, ctx) && AllArchived(r.repos)
    ensures ReadDir(fs, archivedDir).Some? ==>
      && NamedEntries(ReadDir(fs, archivedDir).value)
      && ArchiveScanned(archivedDir, ctx, ReadDir(fs, archivedDir).value, r)
  {
    match ReadDir(fs, archivedDir)
    case None => EmptyScan
    case Some(es) =>
      assert NamedEntries(es);
      var r := ScanArchive(es, archivedDir, ctx);
      ArchiveStored(archivedDir, ctx, es, r);
      r
  }
}

=== FILE: checks.dfy ===
/** The "first offending element" scan that every fail-fast validation loop performs. */
module Checks {
  import opened Wrappers

  /** `i` is the first index whose element fails `ok`. */
  ghost predicate IsFirstFailing<T>(xs: seq<T>, ok: T -> bool, i: int)
  {
    && 0 <= i < |xs|
    && !ok(xs[i])
    && forall j :: 0 <= j < i ==> ok(xs[j])
  }

  /** The index at which a Go `for _, x := range xs { if !ok(x) { return ... } }`
      loop leaves, or `None` when it runs to completion. */
  function FirstFailing<T>(xs: seq<T>, ok: T -> bool): (r: Option<nat>)
    ensures r.None? <==> forall i :: 0 <= i < |xs| ==> ok(xs[i])
    ensures r.Some? ==> IsFirstFailing(xs, ok, r.value)
  {
    if |xs| == 0 then None
    else if !ok(xs[0]) then Some(0)
    else
      match FirstFailing(xs[1..], ok)
      case None =>
        assert forall i :: 1 <= i < |xs| ==> xs[i] == xs[1..][i - 1];
        None
      case Some(k) =>
        assert forall j :: 1 <= j < k + 1 ==> xs[j] == xs[1..][j - 1];
        Some(k + 1)
  }
}

=== FILE: entity.dfy ===
/** The header every configuration document carries, and its checks. */
module Entities {
  import opened Wrappers
  import opened Paths

  /** `apiVersion`, `kind` and `name`, common to every entity. */
  datatype Entity = Entity(apiVersion: string, kind: string, name: string)

  const SupportedApiVersion := "v1"

  /** A failed header check. The first three carry the path as given; the name
      mismatch carries the base name only (`Repository.Validate` reassigns `filename`
      to its base name before that check). */
  datatype HeaderError =
    | InvalidApiVersion(apiVersion: string, file: Path)
    | InvalidKind(kind: string, file: Path)
    | EmptyName(file: Path)
    | InvalidName(name: string, fileName: string)

  /** The name a document read from `file` must declare. */
  function NameFromFilename(file: Path): string
  {
    Stem(Base(file))
  }

  /** The header names the supported version, the expected kind, and a
      non-empty name equal to `expectedName`. */
  predicate ValidHeader(e: Entity, kind: string, expectedName: string)
  {
    && e.apiVersion == SupportedApiVersion
    && e.kind == kind
    && e.name != ""
    && e.name == expectedName
  }

  /** The header checks at the top of every `Validate`, failing fast in the
      order version, kind, empty name, name-matches-filename. */
  function ValidateHeader(e: Entity, kind: string, file: Path): (r: Option<HeaderError>)
    ensures r.None? <==> ValidHeader(e, kind, NameFromFilename(file))
    ensures r.Some? ==>
      match r.value
      case InvalidApiVersion(v, f) => v == e.apiVersion != SupportedApiVersion && f == file
      case InvalidKind(k, f) => e.apiVersion == SupportedApiVersion && k == e.kind != kind && f == file
      case EmptyName(f) => e.apiVersion == SupportedApiVersion && e.kind == kind && e.name == "" && f == file
      case InvalidName(n, b) =>
        && e.apiVersion == SupportedApiVersion && e.kind == kind && e.name != ""
        && n == e.name != NameFromFilename(file) && b == Base(file)
  {
    if e.apiVersion != SupportedApiVersion then Some(InvalidApiVersion(e.apiVersion, file))
    else if e.kind != kind then Some(InvalidKind(e.kind, file))
    else if e.name == "" then Some(EmptyName(file))
    else if e.name != Stem(Base(file)) then Some(InvalidName(e.name, Base(file)))
    else None
  }

  /** A warning: reported to the user, never blocks loading. */
  datatype Warning = MissingYamlExtension(fileName: string)
}

=== FILE: filesystem.dfy ===
/** An in-memory stand-in for the `billy.Filesystem` the loaders read, and the
    abstract outcome of reading and decoding one YAML file. */
module FileSystem {
  import opened Wrappers
  import opened Checks
  import opened Paths

  /** A directory entry. A directory that cannot be listed (`fs.ReadDir`
      fails) has `listable == false`; entries appear in listing order. */
  datatype Node<C> =
    | File(name: string, content: C)
    | Directory(name: string, listable: bool, entries: seq<Node<C>>)

  /** Every entry below `n` has a non-empty name, as on any real file system
      (the loaders index `Name()[0]`). */
  predicate WellFormed<C>(n: Node<C>)
  {
    n.Directory? ==>
      forall i :: 0 <= i < |n.entries| ==> n.entries[i].name != "" && WellFormed(n.entries[i])
  }

  /** `n` is a directory whose entries can be read. */
  predicate Listable<C>(n: Node<C>)
  {
    n.Directory? && n.listable
  }

  /** What `utils.Exists` reports about a path. */
  datatype Probe<C> = ProbeFailed | Absent | Present(node: Node<C>)

  /** The test a lookup applies while scanning past entries: `FirstFailing`
      with it finds the first entry called `name`. */
  function NamedOtherThan<C>(name: string): Node<C> -> bool
  {
    (e: Node<C>) => e.name != name
  }

  /** `i` is the first of `entries` called `name`. */
  ghost predicate FirstNamed<C>(entries: seq<Node<C>>, name: string, i: int)
  {
    IsFirstFailing(entries, NamedOtherThan(name), i)
  }

  /** Resolves `path` below `n`. Descending through a directory that cannot be
      listed fails; a missing component, or one below a file, is absent. */
  function Stat<C>(n: Node<C>, path: Path): (r: Probe<C>)
    ensures |path| == 0 ==> r == Present(n)
    ensures r.Present? && |path| > 0 ==> r.node.name == path[|path| - 1]
    ensures r.Present? && WellFormed(n) ==> WellFormed(r.node)
    ensures |path| > 0 && n.File? ==> r.Absent?
    ensures |path| > 0 && n.Directory? && !n.listable ==> r.ProbeFailed?
    ensures |path| > 0 && Listable(n) && (forall i :: 0 <= i < |n.entries| ==> n.entries[i].name != path[0]) ==> r.Absent?
    decreases path
  {
    if |path| == 0 then Present(n)
    else
      match n
      case File(_, _) => Absent
      case Directory(_, listable, entries) =>
        if !listable then ProbeFailed
        else
          match FirstFailing(entries, NamedOtherThan(path[0]))
          case None => Absent
          case Some(i) =>
            var r := Stat(entries[i], path[1..]);
            assert |path[1..]| > 0 ==> path[1..][|path[1..]| - 1] == path[|path| - 1];
            r
  }

  /** Below a directory that can be listed, a lookup continues in the first
      entry named like the path's next component. */
  lemma StatDescends<C>(n: Node<C>, path: Path, i: int)
    requires |path| > 0 && Listable(n) && FirstNamed(n.entries, path[0], i)
    ensures Stat(n, path) == Stat(n.entries[i], path[1..])
  {
    var found := FirstFailing(n.entries, NamedOtherThan(path[0]));
    assert !NamedOtherThan(path[0])(n.entries[i]);
    assert found == Some(i);
  }

  /** Below a directory that can be listed, the path to its entry `name` is
      found, and it leads to the first entry of that name. */
  lemma {:induction false} StatChild<C>(n: Node<C>, path: Path, name: string, i: int)
    requires Stat(n, path).Present? && Listable(Stat(n, path).node)
    requires FirstNamed(Stat(n, path).node.entries, name, i)
    ensures Stat(n, Join(path, name)) == Present(Stat(n, path).node.entries[i])
    decreases path
  {
    var child := Join(path, name);
    if |path| == 0 {
      assert child == [name];
      assert child[1..] == [];
    } else {
      var found := FirstFailing(n.entries, NamedOtherThan(path[0]));
      assert found.Some?;
      var k := found.value;
      assert FirstNamed(n.entries, path[0], k);
      StatDescends(n, path, k);
      StatDescends(n, child, k);
      assert child[1..] == Join(path[1..], name);
      StatChild(n.entries[k], path[1..], name, i);
    }
  }

  /** Every name a listable directory lists is found by a lookup of the
      joined path. */
  lemma ListedNamesFound<C>(root: Node<C>, path: Path)
    requires Stat(root, path).Present? && Listable(Stat(root, path).node)
    ensures var es := Stat(root, path).node.entries;
      forall i :: 0 <= i < |es| ==> Stat(root, Join(path, es[i].name)).Present?
  {
    var es := Stat(root, path).node.entries;
    forall i | 0 <= i < |es|
      ensures Stat(root, Join(path, es[i].name)).Present?
    {
      var found := FirstFailing(es, NamedOtherThan(es[i].name));
      assert !NamedOtherThan(es[i].name)(es[i]);
      StatChild(root, path, es[i].name, found.value);
    }
  }

  /** The listing `fs.ReadDir(path)` returns, or `None` when it fails:
      listing succeeds exactly when the path leads to a directory that can
      be listed, and it lists that directory's entries. */
  function ReadDir<C>(root: Node<C>, path: Path): (r: Option<seq<Node<C>>>)
    ensures r.Some? <==> Stat(root, path).Present? && Listable(Stat(root, path).node)
    ensures r.Some? ==> Stat(root, path) == Present(Directory(Stat(root, path).node.name, true, r.value))
  {
    var probe := Stat(root, path);
    if probe.Present? && Listable(probe.node) then Some(probe.node.entries) else None
  }

  /** The abstract result of `utils.ReadFile` followed by `yaml.Unmarshal`
      into a `T`: the read failed, the YAML was rejected, or a value. */
  datatype Decoded<+T> = Unreadable | Malformed | Decoded(value: T)

  /** The IO and decoding errors the loaders collect. Each is labelled with
      the path involved; Go's own error for a decode failure is
      `yaml.Unmarshal`'s, which does not name the file. */
  datatype IoError =
    | StatFailed(path: Path)
    | ListFailed(path: Path)
    | ReadFailed(path: Path)
    | DecodeFailed(path: Path)

  /** `NewRuleSet` / `NewRepository` before any field is filled in: read the
      file at `path` and decode it. A failure is labelled with `path`. */
  function Load<T>(path: Path, content: Decoded<T>): (r: Result<T, IoError>)
    ensures r.Success? <==> content.Decoded?
    ensures r.Success? ==> r.value == content.value
    ensures r.Failure? ==> r.error.path == path
    ensures content.Unreadable? ==> r.error.ReadFailed?
    ensures content.Malformed? ==> r.error.DecodeFailed?
  {
    match content
    case Unreadable => Failure(ReadFailed(path))
    case Malformed => Failure(DecodeFailed(path))
    case Decoded(v) => Success(v)
  }
}

=== FILE: loader_state.dfy ===
/** The state the two phases of `ReadRepositories` thread, and where a loaded
    repository may sit. */
module LoaderState {
  import opened Wrappers
  import opened Paths
  import opened FileSystem
  import opened Entities
  import opened Repositories

  /** A configuration tree whose files decode to repository documents. */
  type Tree = Node<Decoded<RepositoryDocument>>

  /** Errors collected while loading repositories. */
  datatype RepositoryLoadError =
    | RepositoryIo(io: IoError)
    | RepositoryRejected(error: RepositoryError)
      // a repository name met a second time: the new file and the earlier location
    | DefinedTwice(name: string, location: Path, existing: Path)

  /** The map, error list and warning list threaded through both phases. */
  datatype Scan = Scan(repos: map<string, Repository>, errors: seq<RepositoryLoadError>, warnings: seq<Warning>)

  const EmptyScan := Scan(map[], [], [])

  /** Where a loaded repository sits: stored under its own valid name; an
      archived one has no owner and lives in the archive directory; any other
      one is owned by the directory that directly contains its file. */
  predicate Placed(repo: Repository, k: string, archivedDir: Path, ctx: Context)
  {
    && repo.header.name == k
    && ValidRepository(repo, k, ctx)
    && (repo.archived ==> repo.owner.None? && repo.directoryPath == archivedDir)
    && (!repo.archived ==> repo.owner == Some(Base(repo.directoryPath)))
  }

  predicate Resolved(repos: map<string, Repository>, archivedDir: Path, ctx: Context)
  {
    forall k :: k in repos ==> Placed(repos[k], k, archivedDir, ctx)
  }

  predicate AllArchived(repos: map<string, Repository>)
  {
    forall k :: k in repos ==> repos[k].archived
  }
}

=== FILE: paths.dfy ===
/** Slash-separated paths and the file-name helpers of Go's `path/filepath`
    and `strings` packages that the loaders use. */
module Paths {

  /** A path as its list of components, relative to the configuration root;
      the empty path is the root itself (Go's "."). */
  type Path = seq<string>

  /** The final component of a path (`filepath.Base`); "." for the root. */
  function Base(p: Path): string
  {
    if |p| == 0 then "." else p[|p| - 1]
  }

  /** Every component but the last (`filepath.Dir`). */
  function Dir(p: Path): Path
  {
    if |p| == 0 then [] else p[..|p| - 1]
  }

  /** `filepath.Join(dir, name)` for a single entry name. */
  function Join(dir: Path, name: string): (p: Path)
    ensures Base(p) == name
    ensures Dir(p) == dir
    ensures |p| == |dir| + 1 && dir <= p
  {
    dir + [name]
  }

  /** No path separator occurs in `s` at or after position `k`. */
  predicate NoSeparatorFrom(s: string, k: int)
  {
    forall j :: 0 <= k <= j < |s| ==> s[j] != '/'
  }

  /** `filepath.Ext`: the suffix of `s` starting at the last '.' of its final
      slash-separated element, or "" when that element has no '.'. */
  function Ext(s: string): (e: string)
    ensures |e| <= |s| && e == s[|s| - |e|..]
    ensures e != "" ==> e[0] == '.'
    ensures forall k :: 1 <= k < |e| ==> e[k] != '.' && e[k] != '/'
    ensures e == "" ==> forall k :: 0 <= k < |s| && NoSeparatorFrom(s, k) ==> s[k] != '.'
  {
    if |s| == 0 || s[|s| - 1] == '/' then ""
    else if s[|s| - 1] == '.' then "."
    else
      var prefix := s[..|s| - 1];
      var e := Ext(prefix);
      if e == "" then
        assert forall k :: 0 <= k < |prefix| && NoSeparatorFrom(s, k) ==> NoSeparatorFrom(prefix, k);
        ""
      else
        e + [s[|s| - 1]]
  }

  /** The name a file must declare: its base name minus `Ext`. */
  function Stem(fileName: string): (stem: string)
    ensures stem + Ext(fileName) == fileName
  {
    fileName[..|fileName| - |Ext(fileName)|]
  }

  /** `strings.HasSuffix`. */
  predicate HasSuffix(s: string, suffix: string)
  {
    |suffix| <= |s| && s[|s| - |suffix|..] == suffix
  }

  const YamlExtension := ".yaml"

  /** A file whose name starts with '.' is hidden; Go indexes `Name()[0]`,
      which panics on an empty name. */
  predicate IsHidden(name: string)
    requires name != ""
  {
    name[0] == '.'
  }

  /** `Ext` of a name ending in ".yaml" is ".yaml" and its stem is the rest. */
  lemma {:induction false} ExtOfYamlName(n: string)
    ensures Ext(n + YamlExtension) == YamlExtension
    ensures Stem(n + YamlExtension) == n
  {
    var s1 := n + ".";
    var s2 := n + ".y";
    var s3 := n + ".ya";
    var s4 := n + ".yam";
    var s5 := n + ".yaml";
    assert s2[..|s2| - 1] == s1;
    assert s3[..|s3| - 1] == s2;
    assert s4[..|s4| - 1] == s3;
    assert s5[..|s5| - 1] == s4;
    assert Ext(s1) == ".";
    assert Ext(s2) == ".y";
    assert Ext(s3) == ".ya";
    assert Ext(s4) == ".yam";
    assert Ext(s5) == ".yaml";
    assert s5[..|s5| - 5] == n;
  }

  /** The archive scan filters with `strings.HasSuffix(name, ".yaml")` and the
      team walk with `filepath.Ext(name) == ".yaml"`: the two agree on every name. */
  lemma {:induction false} YamlSuffixIffExt(s: string)
    ensures HasSuffix(s, YamlExtension) <==> Ext(s) == YamlExtension
  {
    if HasSuffix(s, YamlExtension) {
      var n := s[..|s| - 5];
      assert s == n + YamlExtension;
      ExtOfYamlName(n);
    }
  }

  /** A name accepted by either filter whose stem is `k` is exactly `k` + ".yaml". */
  lemma YamlFileName(fileName: string, k: string)
    requires Ext(fileName) == YamlExtension
    requires Stem(fileName) == k
    ensures fileName == k + YamlExtension
  {
  }
}

=== FILE: repository.dfy ===
/** Repository documents and their validation against the teams and external
    users tables. */
module Repositories {
  import opened Wrappers
  import opened Checks
  import opened Paths
  import opened Entities
  import opened RuleSets

  /** A ruleset override embedded in a repository document. */
  datatype RepositoryRuleSet = RepositoryRuleSet(definition: RuleSetDefinition, name: string)

  datatype RepositorySpec = RepositorySpec(
    writers: seq<string>,
    readers: seq<string>,
    externalUserReaders: seq<string>,
    externalUserWriters: seq<string>,
    isPublic: bool,
    allowAutoMerge: bool,
    deleteBranchOnMerge: bool,
    allowUpdateBranch: bool,
    rulesets: seq<RepositoryRuleSet>)

  /** The fields a repository file can set, as the YAML decoder fills them. */
  datatype RepositoryDocument = RepositoryDocument(
    header: Entity,
    spec: RepositorySpec,
    archived: bool,
    renameTo: string)

  /** A loaded repository: the document plus what the loader derives from the
      file's location (`owner`, `directoryPath`, and `archived`, which the
      loader overwrites). */
  datatype Repository = Repository(
    header: Entity,
    spec: RepositorySpec,
    archived: bool,
    owner: Option<string>,
    renameTo: string,
    directoryPath: Path)

  /** `NewRepository` after a successful decode: no owner yet, and the
      directory the file was read from. */
  function NewRepository(doc: RepositoryDocument, file: Path): (r: Repository)
    ensures r.header == doc.header && r.spec == doc.spec
    ensures r.archived == doc.archived && r.renameTo == doc.renameTo
    ensures r.owner.None?
  {
    Repository(doc.header, doc.spec, doc.archived, None, doc.renameTo, Dir(file))
  }

  /** The directory `NewRepository` records is the one the file sits in: it
      followed by the file's base name is the file's path. */
  lemma NewRepositoryDirectory(doc: RepositoryDocument, file: Path)
    requires |file| > 0
    ensures NewRepository(doc, file).directoryPath + [Base(file)] == file
  {
  }

  const RepositoryKind := "Repository"

  /** The validation context: the names of the teams and of the external users
      (only their presence is consulted), and the platform's repository-name
      sanitizer, `utils.GithubAnsiString`, whose definition is not part of this
      model. */
  datatype Context = Context(teams: set<string>, externalUsers: set<string>, sanitize: string -> string)

  /** Why a repository was rejected. */
  datatype RepositoryError =
    | RepositoryHeader(header: HeaderError)
    | UnknownWriter(team: string, fileName: string)
    | UnknownReader(team: string, fileName: string)
    | UnknownExternalReader(user: string, fileName: string)
    | UnknownExternalWriter(user: string, fileName: string)
    | UnnamedRuleSet
    | InvalidRuleSetEnforcement(ruleset: string)
    | DuplicateRuleSetName(ruleset: string)
    | NameNotSanitized(name: string, sanitized: string, fileName: string)

  /** Every name of `names` is a key of `known`. */
  predicate AllKnown(names: seq<string>, known: set<string>)
  {
    forall i :: 0 <= i < |names| ==> names[i] in known
  }

  /** The test each reference loop applies: the name is a key of `known`. */
  function Known(known: set<string>): string -> bool
  {
    (n: string) => n in known
  }

  /** `i` is the first position of `names` that is not in `known`: the
      `IsFirstFailing` position for `Known(known)`, stated without a function
      value so that contracts mentioning it stay cheap to check. */
  predicate FirstUnknown(names: seq<string>, known: set<string>, i: int)
  {
    0 <= i < |names| && names[i] !in known && forall j :: 0 <= j < i ==> names[j] in known
  }

  function FirstMissing(names: seq<string>, known: set<string>): (r: Option<nat>)
    ensures r.None? <==> AllKnown(names, known)
    ensures r.Some? ==> FirstUnknown(names, known, r.value)
  {
    FirstFailing(names, Known(known))
  }

  /** Embedded rulesets are named, use a valid enforcement, and no two share a name. */
  predicate EmbeddedRuleSetsValid(rss: seq<RepositoryRuleSet>)
  {
    && (forall i :: 0 <= i < |rss| ==> rss[i].name != "" && ValidEnforcement(rss[i].definition.enforcement))
    && (forall i, j :: 0 <= i < j < |rss| ==> rss[i].name != rss[j].name)
  }

  /** The embedded rulesets before position `n` pass the loop's checks. */
  predicate EmbeddedPrefixValid(rss: seq<RepositoryRuleSet>, n: int)
  {
    && (forall i :: 0 <= i < n && i < |rss| ==> rss[i].name != "" && ValidEnforcement(rss[i].definition.enforcement))
    && (forall i, j :: 0 <= i < j < n && j < |rss| ==> rss[i].name != rss[j].name)
  }

  /** `e` is the error the loop reports on reaching the embedded ruleset `k`. */
  predicate EmbeddedFaultAt(rss: seq<RepositoryRuleSet>, k: int, e: RepositoryError)
    requires 0 <= k < |rss|
  {
    match e
    case UnnamedRuleSet => rss[k].name == ""
    case InvalidRuleSetEnforcement(n) => n == rss[k].name != "" && !ValidEnforcement(rss[k].definition.enforcement)
    case DuplicateRuleSetName(n) =>
      && n == rss[k].name != "" && ValidEnforcement(rss[k].definition.enforcement)
      && exists j :: 0 <= j < k && rss[j].name == n
    case _ => false
  }

  /** The loop over embedded rulesets from position `i`, with `seen` holding
      the names met so far (the `rulesetname` map of `Repository.Validate`): it fails on the
      first ruleset that is unnamed, has an invalid enforcement, or repeats a
      name. */
  function CheckEmbeddedRuleSets(rss: seq<RepositoryRuleSet>, i: nat, seen: set<string>): (r: Option<RepositoryError>)
    requires i <= |rss| && EmbeddedPrefixValid(rss, i)
    requires forall n :: n in seen <==> exists j :: 0 <= j < i && rss[j].name == n
    ensures r.None? <==> EmbeddedPrefixValid(rss, |rss|)
    ensures r.Some? ==> exists k :: i <= k < |rss| && EmbeddedPrefixValid(rss, k) && EmbeddedFaultAt(rss, k, r.value)
    decreases |rss| - i
  {
    if i == |rss| then None
    else
      var name := rss[i].name;
      if name == "" then Some(UnnamedRuleSet)
      else if !ValidEnforcement(rss[i].definition.enforcement) then Some(InvalidRuleSetEnforcement(name))
      else if name in seen then
        assert exists j :: 0 <= j < i && rss[j].name == name;
        assert EmbeddedFaultAt(rss, i, DuplicateRuleSetName(name));
        Some(DuplicateRuleSetName(name))
      else
        assert forall j :: 0 <= j < i ==> rss[j].name != name;
        CheckEmbeddedRuleSets(rss, i + 1, seen + {name})
  }

  /** The declarative meaning of a valid repository read from a file whose
      name minus extension is `expectedName`. */
  predicate ValidRepository(repo: Repository, expectedName: string, ctx: Context)
  {
    && ValidHeader(repo.header, RepositoryKind, expectedName)
    && AllKnown(repo.spec.writers, ctx.teams)
    && AllKnown(repo.spec.readers, ctx.teams)
    && AllKnown(repo.spec.externalUserReaders, ctx.externalUsers)
    && AllKnown(repo.spec.externalUserWriters, ctx.externalUsers)
    && EmbeddedRuleSetsValid(repo.spec.rulesets)
    && ctx.sanitize(repo.header.name) == repo.header.name
  }

  /** `Repository.Validate`: succeeds exactly on valid repositories, and
      otherwise reports the first failing check in the order `Repository.Validate` makes them: header,
      writers, readers, external readers, external writers, embedded
      rulesets, sanitizer. */
  function Validate(repo: Repository, file: Path, ctx: Context): (r: Outcome<RepositoryError>)
    ensures r.Pass? <==> ValidRepository(repo, NameFromFilename(file), ctx)
    ensures r.Fail? ==>
      var header := ValidHeader(repo.header, RepositoryKind, NameFromFilename(file));
      match r.error
      case RepositoryHeader(h) => ValidateHeader(repo.header, RepositoryKind, file) == Some(h)
      case UnknownWriter(t, b) =>
        && header && b == Base(file)
        && exists i :: FirstUnknown(repo.spec.writers, ctx.teams, i) && repo.spec.writers[i] == t
      case UnknownReader(t, b) =>
        && header && b == Base(file) && AllKnown(repo.spec.writers, ctx.teams)
        && exists i :: FirstUnknown(repo.spec.readers, ctx.teams, i) && repo.spec.readers[i] == t
      case UnknownExternalReader(u, b) =>
        && header && b == Base(file)
        && AllKnown(repo.spec.writers, ctx.teams) && AllKnown(repo.spec.readers, ctx.teams)
        && exists i :: FirstUnknown(repo.spec.externalUserReaders, ctx.externalUsers, i)
                       && repo.spec.externalUserReaders[i] == u
      case UnknownExternalWriter(u, b) =>
        && header && b == Base(file)
        && AllKnown(repo.spec.writers, ctx.teams) && AllKnown(repo.spec.readers, ctx.teams)
        && AllKnown(repo.spec.externalUserReaders, ctx.externalUsers)
        && exists i :: FirstUnknown(repo.spec.externalUserWriters, ctx.externalUsers, i)
                       && repo.spec.externalUserWriters[i] == u
      case NameNotSanitized(n, s, b) =>
        && header && b == Base(file)
        && AllKnown(repo.spec.writers, ctx.teams) && AllKnown(repo.spec.readers, ctx.teams)
        && AllKnown(repo.spec.externalUserReaders, ctx.externalUsers)
        && AllKnown(repo.spec.externalUserWriters, ctx.externalUsers)
        && EmbeddedRuleSetsValid(repo.spec.rulesets)
        && n == repo.header.name && s == ctx.sanitize(n) != n
      case _ =>
        && header
        && AllKnown(repo.spec.writers, ctx.teams) && AllKnown(repo.spec.readers, ctx.teams)
        && AllKnown(repo.spec.externalUserReaders, ctx.externalUsers)
        && AllKnown(repo.spec.externalUserWriters, ctx.externalUsers)
        && !EmbeddedRuleSetsValid(repo.spec.rulesets)
        && exists k :: 0 <= k < |repo.spec.rulesets| && EmbeddedPrefixValid(repo.spec.rulesets, k)
                       && EmbeddedFaultAt(repo.spec.rulesets, k, r.error)
  {
    match ValidateHeader(repo.header, RepositoryKind, file)
    case Some(h) => Fail(RepositoryHeader(h))
    case None =>
      var base := Base(file);
      match FirstMissing(repo.spec.writers, ctx.teams)
      case Some(i) =>
        assert FirstUnknown(repo.spec.writers, ctx.teams, i);
        Fail(UnknownWriter(repo.spec.writers[i], base))
      case None =>
        match FirstMissing(repo.spec.readers, ctx.teams)
        case Some(i) =>
          assert FirstUnknown(repo.spec.readers, ctx.teams, i);
          Fail(UnknownReader(repo.spec.readers[i], base))
        case None =>
          match FirstMissing(repo.spec.externalUserReaders, ctx.externalUsers)
          case Some(i) =>
            assert FirstUnknown(repo.spec.externalUserReaders, ctx.externalUsers, i);
            Fail(UnknownExternalReader(repo.spec.externalUserReaders[i], base))
          case None =>
            match FirstMissing(repo.spec.externalUserWriters, ctx.externalUsers)
            case Some(i) =>
              assert FirstUnknown(repo.spec.externalUserWriters, ctx.externalUsers, i);
              Fail(UnknownExternalWriter(repo.spec.externalUserWriters[i], base))
            case None =>
              match CheckEmbeddedRuleSets(repo.spec.rulesets, 0, {})
              case Some(e) => Fail(e)
              case None =>
                if ctx.sanitize(repo.header.name) != repo.header.name then
                  Fail(NameNotSanitized(repo.header.name, ctx.sanitize(repo.header.name), base))
                else
                  Pass
  }

  /** Validation reads only the document's fields: the loader may set `owner`,
      `archived` and `directoryPath` afterwards without invalidating it. */
  lemma ValidityIgnoresPlacement(repo: Repository, expectedName: string, ctx: Context,
                                 archived: bool, owner: Option<string>, dir: Path)
    ensures ValidRepository(repo, expectedName, ctx) ==
      ValidRepository(repo.(archived := archived, owner := owner, directoryPath := dir), expectedName, ctx)
  {
  }
}

=== FILE: repository_reader.dfy ===
/** `ReadRepositories`: the archive scan followed by the walk of the team
    tree, threading one map, one error list and one warning list. */
module RepositoryLoader {
  import opened Wrappers
  import opened Paths
  import opened FileSystem
  import opened Entities
  import opened Repositories
  import opened LoaderState
  import opened ArchiveScan
  import opened TeamVisits
  import opened TeamWalk

  /** The result of `ReadRepositories`; `repos == None` is Go's nil map. */
  datatype RepositoriesLoaded = RepositoriesLoaded(
    repos: Option<map<string, Repository>>,
    errors: seq<RepositoryLoadError>,
    warnings: seq<Warning>)

  /** Listing `path` fails although something is there. */
  predicate ListingFails(fs: Tree, path: Path)
  {
    Stat(fs, path).Present? && ReadDir(fs, path).None?
  }

  /** What phase two makes of the archive results `archive`: the probe of the
      team root failing adds its error and stops; a missing root stops with
      nothing added; a root that cannot be listed adds its error and drops the
      map; otherwise the result is the replay of the root's visits. */
  ghost predicate PhaseTwoOf(fs: Tree, teamDir: Path, archivedDir: Path, ctx: Context, archive: Scan, r: RepositoriesLoaded)
    requires WellFormed(fs)
  {
    match Stat(fs, teamDir)
    case ProbeFailed =>
      r == RepositoriesLoaded(Some(archive.repos), archive.errors + [RepositoryIo(StatFailed(teamDir))], archive.warnings)
    case Absent =>
      r == RepositoriesLoaded(Some(archive.repos), archive.errors, archive.warnings)
    case Present(_) =>
      match ReadDir(fs, teamDir)
      case None => r == RepositoriesLoaded(None, archive.errors + [RepositoryIo(ListFailed(teamDir))], archive.warnings)
      case Some(teams) =>
        && r.repos.Some?
        && Replayed(archive, RootVisits(teams, 0, teamDir), archivedDir, ctx, Scan(r.repos.value, r.errors, r.warnings))
  }

  /** Phase two applied to the archive results. */
  function TeamPhase(fs: Tree, teamDir: Path, archivedDir: Path, ctx: Context, archive: Scan): (r: RepositoriesLoaded)
    requires WellFormed(fs)
    requires Resolved(archive.repos, archivedDir, ctx) && AllArchived(archive.repos)
    ensures PhaseTwoOf(fs, teamDir, archivedDir, ctx, archive, r)
    ensures r.repos.Some? ==> Resolved(r.repos.value, archivedDir, ctx)
    ensures r.repos.None? <==> ListingFails(fs, teamDir)
    ensures r.warnings == archive.warnings
    ensures r.repos.Some? ==>
      && (forall k :: k in archive.repos ==> k in r.repos.value && r.repos.value[k] == archive.repos[k])
      && (forall k :: k in r.repos.value ==> (r.repos.value[k].archived <==> k in archive.repos))
      && (forall k :: k in r.repos.value && !r.repos.value[k].archived ==> teamDir < r.repos.value[k].directoryPath)
  {
    match Stat(fs, teamDir)
    case ProbeFailed => RepositoriesLoaded(Some(archive.repos), archive.errors + [RepositoryIo(StatFailed(teamDir))], archive.warnings)
    case Absent => RepositoriesLoaded(Some(archive.repos), archive.errors, archive.warnings)
    case Present(_) =>
      match ReadDir(fs, teamDir)
      case None => RepositoriesLoaded(None, archive.errors + [RepositoryIo(ListFailed(teamDir))], archive.warnings)
      case Some(teams) =>
        var s := WalkTeams(teams, 0, teamDir, archivedDir, ctx, archive);
        ReplaySpec(archive, RootVisits(teams, 0, teamDir), archivedDir, ctx);
        RepositoriesLoaded(Some(s.repos), s.errors, s.warnings)
  }

  /** `ReadRepositories`: a failed probe of the archive directory stops with
      an empty map and that one error; an archive directory that cannot be
      listed stops with a nil map and that one error; otherwise phase two
      runs on the archive scan's results. */
  function ReadRepositories(fs: Tree, archivedDir: Path, teamDir: Path, ctx: Context): (r: RepositoriesLoaded)
    requires WellFormed(fs)
    ensures Stat(fs, archivedDir).ProbeFailed? ==> r == RepositoriesLoaded(Some(map[]), [RepositoryIo(StatFailed(archivedDir))], [])
    ensures ListingFails(fs, archivedDir) ==> r == RepositoriesLoaded(None, [RepositoryIo(ListFailed(archivedDir))], [])
    ensures !Stat(fs, archivedDir).ProbeFailed? && !ListingFails(fs, archivedDir) ==>
      PhaseTwoOf(fs, teamDir, archivedDir, ctx, ArchivePhase(fs, archivedDir, ctx), r)
    ensures r.repos.Some? ==> Resolved(r.repos.value, archivedDir, ctx)
    ensures r.repos.None? <==>
      ListingFails(fs, archivedDir) || (!Stat(fs, archivedDir).ProbeFailed? && ListingFails(fs, teamDir))
    ensures !Stat(fs, archivedDir).ProbeFailed? && r.repos.Some? ==>
      var archive := ArchivePhase(fs, archivedDir, ctx);
      && (forall k :: k in archive.repos ==> k in r.repos.value && r.repos.value[k] == archive.repos[k])
      && (forall k :: k in r.repos.value ==> (r.repos.value[k].archived <==> k in archive.repos))
    ensures r.repos.Some? ==> forall k :: k in r.repos.value && !r.repos.value[k].archived ==>
      teamDir < r.repos.value[k].directoryPath
  {
    match Stat(fs, archivedDir)
    case ProbeFailed => RepositoriesLoaded(Some(map[]), [RepositoryIo(StatFailed(archivedDir))], [])
    case Absent => TeamPhase(fs, teamDir, archivedDir, ctx, ArchivePhase(fs, archivedDir, ctx))
    case Present(_) =>
      match ReadDir(fs, archivedDir)
      case None => RepositoriesLoaded(None, [RepositoryIo(ListFailed(archivedDir))], [])
      case Some(_) => TeamPhase(fs, teamDir, archivedDir, ctx, ArchivePhase(fs, archivedDir, ctx))
  }
}

=== FILE: ruleset.dfy ===
/** Ruleset documents: their validation and the flat directory reader. */
module RuleSets {
  import opened Wrappers
  import opened Checks
  import opened Paths
  import opened FileSystem
  import opened Entities
  import opened RuleSetCompare
  import opened Scans

  datatype BypassApp = BypassApp(appName: string, mode: string)

  /** Branch selection: literal branch names or the sentinels starting with '~'. */
  datatype BranchSelection = BranchSelection(includeBranches: seq<string>, excludeBranches: seq<string>)

  datatype Rule = Rule(ruletype: string, parameters: RuleSetParameters)

  /** The `spec` block of a ruleset, also embedded in repositories. */
  datatype RuleSetDefinition = RuleSetDefinition(
    enforcement: string,
    bypassApps: seq<BypassApp>,
    on: BranchSelection,
    rules: seq<Rule>)

  datatype RuleSet = RuleSet(header: Entity, spec: RuleSetDefinition)

  const RuleSetKind := "Ruleset"

  /** The accepted enforcement values; `RuleSet.Validate` accepts "disable",
      although the field's comment says "disabled". */
  predicate ValidEnforcement(s: string)
  {
    s == "disable" || s == "active" || s == "evaluate"
  }

  /** The rule-type loop's test: the rule's type is one `ParseRuleType`
      knows. `ValidRuleSet` states the same test on the rule type directly. */
  predicate IsKnownRule(rule: Rule)
  {
    ParseRuleType(rule.ruletype).Some?
  }

  predicate IsValidBypass(app: BypassApp)
  {
    app.mode == "always" || app.mode == "pull_request"
  }

  /** An include entry starting with '~' must be one of the two sentinels. */
  predicate IsValidInclude(on: string)
  {
    on != "" && on[0] == '~' ==> on == "~DEFAULT_BRANCH" || on == "~ALL"
  }

  /** `RuleSet.Validate` reads `on[0]` of every include entry it reaches, which panics
      on an empty entry. */
  predicate IncludesNonEmpty(rs: RuleSet)
  {
    forall i :: 0 <= i < |rs.spec.on.includeBranches| ==> rs.spec.on.includeBranches[i] != ""
  }

  /** The declarative meaning of a valid ruleset read from a file whose name
      minus extension is `expectedName`. */
  predicate ValidRuleSet(rs: RuleSet, expectedName: string)
  {
    && ValidHeader(rs.header, RuleSetKind, expectedName)
    && (forall i :: 0 <= i < |rs.spec.rules| ==> ParseRuleType(rs.spec.rules[i].ruletype).Some?)
    && ValidEnforcement(rs.spec.enforcement)
    && (forall i :: 0 <= i < |rs.spec.bypassApps| ==> IsValidBypass(rs.spec.bypassApps[i]))
    && (forall i :: 0 <= i < |rs.spec.on.includeBranches| ==> IsValidInclude(rs.spec.on.includeBranches[i]))
  }

  /** Why a ruleset was rejected; past the header, errors name the base file name. */
  datatype RuleSetError =
    | RuleSetHeader(header: HeaderError)
    | InvalidRuleType(ruletype: string, fileName: string)
    | InvalidEnforcement(enforcement: string, fileName: string)
    | InvalidBypassMode(mode: string, appName: string, fileName: string)
    | InvalidInclude(branch: string, fileName: string)

  /** `RuleSet.Validate`: succeeds exactly on valid rulesets, and otherwise
      reports the first failing check in the order the Go method makes them (header, rule types,
      enforcement, bypass modes, includes) with the first offending element. */
  function Validate(rs: RuleSet, file: Path): (r: Outcome<RuleSetError>)
    requires IncludesNonEmpty(rs)
    ensures r.Pass? <==> ValidRuleSet(rs, NameFromFilename(file))
    ensures r.Fail? ==>
      match r.error
      case RuleSetHeader(h) => ValidateHeader(rs.header, RuleSetKind, file) == Some(h)
      case InvalidRuleType(t, b) =>
        && ValidHeader(rs.header, RuleSetKind, NameFromFilename(file)) && b == Base(file)
        && exists i :: IsFirstFailing(rs.spec.rules, IsKnownRule, i) && rs.spec.rules[i].ruletype == t
      case InvalidEnforcement(v, b) =>
        && ValidHeader(rs.header, RuleSetKind, NameFromFilename(file)) && b == Base(file)
        && (forall i :: 0 <= i < |rs.spec.rules| ==> ParseRuleType(rs.spec.rules[i].ruletype).Some?)
        && v == rs.spec.enforcement && !ValidEnforcement(v)
      case InvalidBypassMode(m, a, b) =>
        && ValidHeader(rs.header, RuleSetKind, NameFromFilename(file)) && b == Base(file)
        && (forall i :: 0 <= i < |rs.spec.rules| ==> ParseRuleType(rs.spec.rules[i].ruletype).Some?)
        && ValidEnforcement(rs.spec.enforcement)
        && exists i :: IsFirstFailing(rs.spec.bypassApps, IsValidBypass, i) && rs.spec.bypassApps[i] == BypassApp(a, m)
      case InvalidInclude(on, b) =>
        && ValidHeader(rs.header, RuleSetKind, NameFromFilename(file)) && b == Base(file)
        && (forall i :: 0 <= i < |rs.spec.rules| ==> ParseRuleType(rs.spec.rules[i].ruletype).Some?)
        && ValidEnforcement(rs.spec.enforcement)
        && (forall i :: 0 <= i < |rs.spec.bypassApps| ==> IsValidBypass(rs.spec.bypassApps[i]))
        && exists i :: IsFirstFailing(rs.spec.on.includeBranches, IsValidInclude, i) && rs.spec.on.includeBranches[i] == on
  {
    match ValidateHeader(rs.header, RuleSetKind, file)
    case Some(h) => Fail(RuleSetHeader(h))
    case None =>
      var base := Base(file);
      match FirstFailing(rs.spec.rules, IsKnownRule)
      case Some(i) => Fail(InvalidRuleType(rs.spec.rules[i].ruletype, base))
      case None =>
        if !ValidEnforcement(rs.spec.enforcement) then Fail(InvalidEnforcement(rs.spec.enforcement, base))
        else
          match FirstFailing(rs.spec.bypassApps, IsValidBypass)
          case Some(i) =>
            Fail(InvalidBypassMode(rs.spec.bypassApps[i].mode, rs.spec.bypassApps[i].appName, base))
          case None =>
            match FirstFailing(rs.spec.on.includeBranches, IsValidInclude)
            case Some(i) => Fail(InvalidInclude(rs.spec.on.includeBranches[i], base))
            case None => Pass
  }

  /** Errors collected by the ruleset directory reader. */
  datatype RuleSetLoadError = RuleSetIo(io: IoError) | RuleSetRejected(error: RuleSetError)


  /** A ruleset file's decoded document can be validated without a panic. */
  predicate LoadableEntry(e: Node<Decoded<RuleSet>>)
  {
    && e.name != ""
    && (e.File? && e.content.Decoded? ==> IncludesNonEmpty(e.content.value))
  }

  /** One iteration of the reader's loop: directories and hidden names are
      skipped; a file is read, decoded and validated against its own path.
      A rejection carries exactly the error reading or validating it gave. */
  function ClassifyRuleSetEntry(dirname: Path, e: Node<Decoded<RuleSet>>): (r: EntryOutcome<RuleSet, RuleSetLoadError>)
    requires LoadableEntry(e)
    ensures r.Skipped? <==> e.Directory? || IsHidden(e.name)
    ensures r.Accepted? ==> e.content == Decoded(r.value) && r.key == r.value.header.name && ValidRuleSet(r.value, Stem(e.name))
    ensures r.Accepted? <==>
      e.File? && !IsHidden(e.name) && e.content.Decoded? && ValidRuleSet(e.content.value, Stem(e.name))
    ensures r.Rejected? ==>
      var path := Join(dirname, e.name);
      match r.error
      case RuleSetIo(io) => Load(path, e.content) == Failure(io)
      case RuleSetRejected(err) => e.content.Decoded? && Validate(e.content.value, path) == Fail(err)
  {
    if e.Directory? || IsHidden(e.name) then Skipped
    else
      var path := Join(dirname, e.name);
      match Load(path, e.content)
      case Failure(io) => Rejected(RuleSetIo(io))
      case Success(rs) =>
        match Validate(rs, path)
        case Fail(err) => Rejected(RuleSetRejected(err))
        case Pass => Accepted(rs.header.name, rs)
  }

  predicate AllLoadable(es: seq<Node<Decoded<RuleSet>>>)
  {
    forall i :: 0 <= i < |es| ==> LoadableEntry(es[i])
  }

  /** The outcome of every entry of a listing, in listing order; every
      accepted ruleset declares the name its file name promises. */
  function Outcomes(dirname: Path, es: seq<Node<Decoded<RuleSet>>>): (os: seq<EntryOutcome<RuleSet, RuleSetLoadError>>)
    requires AllLoadable(es)
    ensures |os| == |es|
    ensures forall i :: 0 <= i < |es| ==> os[i] == ClassifyRuleSetEntry(dirname, es[i])
    ensures forall i :: 0 <= i < |os| && os[i].Accepted? ==>
      && os[i].key == os[i].value.header.name == Stem(es[i].name)
      && ValidRuleSet(os[i].value, os[i].key)
  {
    seq(|es|, i requires 0 <= i < |es| => ClassifyRuleSetEntry(dirname, es[i]))
  }

  /** The loop of `ReadRuleSetDirectory` over a successful listing. A name is a
      key exactly when some entry was accepted under it; the value is the one
      from the LAST such entry (later files overwrite); every rejected entry
      contributes one error, in listing order. */
  method ScanRuleSetEntries(dirname: Path, es: seq<Node<Decoded<RuleSet>>>)
    returns (rulesets: map<string, RuleSet>, errors: seq<RuleSetLoadError>)
    requires AllLoadable(es)
    ensures errors == Rejections(Outcomes(dirname, es))
    ensures ScanState(Outcomes(dirname, es), |es|, rulesets)
    ensures forall k :: k in rulesets ==> rulesets[k].header.name == k && ValidRuleSet(rulesets[k], k)
  {
    ghost var os := Outcomes(dirname, es);
    rulesets := map[];
    errors := [];
    var i := 0;
    while i < |es|
      invariant 0 <= i <= |es|
      invariant errors == Rejections(os[..i])
      invariant ScanState(os, i, rulesets)
    {
      assert os[..i + 1][..i] == os[..i];
      var o := ClassifyRuleSetEntry(dirname, es[i]);
      if o.Accepted? {
        AcceptStep(os, i, rulesets);
        rulesets := rulesets[o.key := o.value];
      } else {
        KeepStep(os, i, rulesets);
        if o.Rejected? {
          errors := errors + [o.error];
        }
      }
      i := i + 1;
    }
    assert os[..i] == os;
    forall k | k in rulesets
      ensures rulesets[k].header.name == k && ValidRuleSet(rulesets[k], k)
    {
      var j :| LastAcceptedBefore(os, j, k, i) && os[j].value == rulesets[k];
    }
  }

  /** The result of `ReadRuleSetDirectory`. */
  datatype RuleSetsLoaded = RuleSetsLoaded(
    rulesets: map<string, RuleSet>,
    errors: seq<RuleSetLoadError>,
    warnings: seq<Warning>)

  /** Every direct entry of `dirname` can be classified without a panic. */
  predicate LoadableDirectory(fs: Node<Decoded<RuleSet>>, dirname: Path)
  {
    match ReadDir(fs, dirname)
    case None => true
    case Some(es) => AllLoadable(es)
  }

  /** `ReadRuleSetDirectory`: a missing directory is not an error; a probe or
      listing failure is the only error; otherwise the scan of its entries.
      It never warns. */
  method ReadRuleSetDirectory(fs: Node<Decoded<RuleSet>>, dirname: Path) returns (r: RuleSetsLoaded)
    requires LoadableDirectory(fs, dirname)
    ensures r.warnings == []
    ensures Stat(fs, dirname).Absent? ==> r.rulesets == map[] && r.errors == []
    ensures Stat(fs, dirname).ProbeFailed? ==> r.rulesets == map[] && r.errors == [RuleSetIo(StatFailed(dirname))]
    ensures Stat(fs, dirname).Present? && ReadDir(fs, dirname).None? ==>
      r.rulesets == map[] && r.errors == [RuleSetIo(ListFailed(dirname))]
    ensures ReadDir(fs, dirname).Some? ==>
      var os := Outcomes(dirname, ReadDir(fs, dirname).value);
      && r.errors == Rejections(os)
      && ScanState(os, |os|, r.rulesets)
    ensures forall k :: k in r.rulesets ==> r.rulesets[k].header.name == k && ValidRuleSet(r.rulesets[k], k)
  {
    match Stat(fs, dirname)
    case ProbeFailed =>
      return RuleSetsLoaded(map[], [RuleSetIo(StatFailed(dirname))], []);
    case Absent =>
      return RuleSetsLoaded(map[], [], []);
    case Present(n) =>
      match ReadDir(fs, dirname)
      case None =>
        return RuleSetsLoaded(map[], [RuleSetIo(ListFailed(dirname))], []);
      case Some(es) =>
        var rulesets, errors := ScanRuleSetEntries(dirname, es);
        return RuleSetsLoaded(rulesets, errors, []);
  }
}

=== FILE: ruleset_parameters.dfy ===
/** Branch-protection rule parameters and the per-rule-type equivalence used
    to decide whether a desired and an observed rule say the same thing. */
module RuleSetCompare {
  import opened Wrappers

  /** The parameters of one rule; which fields matter depends on the rule type. */
  datatype RuleSetParameters = RuleSetParameters(
    // pull request review settings
    dismissStaleReviewsOnPush: bool,
    requireCodeOwnerReview: bool,
    requiredApprovingReviewCount: int,
    requiredReviewThreadResolution: bool,
    requireLastPushApproval: bool,
    // required status check settings
    requiredStatusChecks: seq<string>,
    strictRequiredStatusChecksPolicy: bool)

  /** The three rule types the loader accepts. */
  datatype RuleType = RequiredSignatures | PullRequest | RequiredStatusChecks

  /** The spelling of a rule type in a ruleset document. */
  function RuleTypeName(t: RuleType): string
  {
    match t
    case RequiredSignatures => "required_signatures"
    case PullRequest => "pull_request"
    case RequiredStatusChecks => "required_status_checks"
  }

  /** Reads a rule type tag; `None` for every string but the three known ones. */
  function ParseRuleType(s: string): (r: Option<RuleType>)
    ensures r.Some? ==> RuleTypeName(r.value) == s
    ensures r.None? ==> forall t :: RuleTypeName(t) != s
  {
    if s == "required_signatures" then Some(RequiredSignatures)
    else if s == "pull_request" then Some(PullRequest)
    else if s == "required_status_checks" then Some(RequiredStatusChecks)
    else None
  }

  /** Reading back the name of a rule type gives that rule type. */
  lemma ParseRuleTypeName(t: RuleType)
    ensures ParseRuleType(RuleTypeName(t)) == Some(t)
  {
  }

  /** The five pull request review settings as one value. */
  datatype PullRequestSettings = PullRequestSettings(
    dismissStaleReviewsOnPush: bool,
    requireCodeOwnerReview: bool,
    requiredApprovingReviewCount: int,
    requiredReviewThreadResolution: bool,
    requireLastPushApproval: bool)

  function PullRequestPart(p: RuleSetParameters): PullRequestSettings
  {
    PullRequestSettings(p.dismissStaleReviewsOnPush, p.requireCodeOwnerReview,
      p.requiredApprovingReviewCount, p.requiredReviewThreadResolution, p.requireLastPushApproval)
  }

  /** The verdict of `StringArrayEquivalent` on two status check lists; its
      definition is not part of this model, so it is a parameter. */
  type ListEquivalence = (seq<string>, seq<string>) -> bool

  /** `CompareRulesetParameters`: dispatch on the rule type's string tag,
      comparing only the parameters that type carries; an unknown tag
      compares unequal. */
  function CompareRulesetParameters(ruletype: string, left: RuleSetParameters, right: RuleSetParameters,
                                    sameChecks: ListEquivalence): (r: bool)
    ensures ruletype == "required_signatures" ==> r
    ensures ruletype == "pull_request" ==> (r <==> PullRequestPart(left) == PullRequestPart(right))
    ensures ruletype == "required_status_checks" ==>
      (r <==> sameChecks(left.requiredStatusChecks, right.requiredStatusChecks)
              && left.strictRequiredStatusChecksPolicy == right.strictRequiredStatusChecksPolicy)
    ensures ParseRuleType(ruletype).None? ==> !r
  {
    if ruletype == "required_signatures" then
      true
    else if ruletype == "pull_request" then
      if left.dismissStaleReviewsOnPush != right.dismissStaleReviewsOnPush then false
      else if left.requireCodeOwnerReview != right.requireCodeOwnerReview then false
      else if left.requiredApprovingReviewCount != right.requiredApprovingReviewCount then false
      else if left.requiredReviewThreadResolution != right.requiredReviewThreadResolution then false
      else if left.requireLastPushApproval != right.requireLastPushApproval then false
      else true
    else if ruletype == "required_status_checks" then
      if !sameChecks(left.requiredStatusChecks, right.requiredStatusChecks) then false
      else if left.strictRequiredStatusChecksPolicy != right.strictRequiredStatusChecksPolicy then false
      else true
    else
      false
  }

  /** The same comparison over the closed enumeration of rule types: each rule
      type compares exactly the fields that belong to it. */
  function Equivalent(t: RuleType, left: RuleSetParameters, right: RuleSetParameters,
                      sameChecks: ListEquivalence): bool
  {
    match t
    case RequiredSignatures => true
    case PullRequest => PullRequestPart(left) == PullRequestPart(right)
    case RequiredStatusChecks =>
      && sameChecks(left.requiredStatusChecks, right.requiredStatusChecks)
      && left.strictRequiredStatusChecksPolicy == right.strictRequiredStatusChecksPolicy
  }

  /** The string dispatch agrees with the typed one and fails closed on an
      unknown tag. */
  lemma CompareIsTypedEquivalence(ruletype: string, left: RuleSetParameters, right: RuleSetParameters,
                                  sameChecks: ListEquivalence)
    ensures CompareRulesetParameters(ruletype, left, right, sameChecks) ==
      match ParseRuleType(ruletype)
      case None => false
      case Some(t) => Equivalent(t, left, right, sameChecks)
  {
  }

  /** Pull request rules ignore the status check fields on both sides. */
  lemma PullRequestIgnoresStatusChecks(left: RuleSetParameters, right: RuleSetParameters,
                                       checksL: seq<string>, strictL: bool,
                                       checksR: seq<string>, strictR: bool,
                                       sameChecks: ListEquivalence)
    ensures CompareRulesetParameters("pull_request", left, right, sameChecks) ==
      CompareRulesetParameters("pull_request",
        left.(requiredStatusChecks := checksL, strictRequiredStatusChecksPolicy := strictL),
        right.(requiredStatusChecks := checksR, strictRequiredStatusChecksPolicy := strictR), sameChecks)
  {
  }

  /** Status check rules ignore the pull request fields on both sides. */
  lemma StatusChecksIgnorePullRequestFields(left: RuleSetParameters, right: RuleSetParameters,
                                            prL: PullRequestSettings, prR: PullRequestSettings,
                                            sameChecks: ListEquivalence)
    ensures CompareRulesetParameters("required_status_checks", left, right, sameChecks) ==
      CompareRulesetParameters("required_status_checks",
        left.(dismissStaleReviewsOnPush := prL.dismissStaleReviewsOnPush,
              requireCodeOwnerReview := prL.requireCodeOwnerReview,
              requiredApprovingReviewCount := prL.requiredApprovingReviewCount,
              requiredReviewThreadResolution := prL.requiredReviewThreadResolution,
              requireLastPushApproval := prL.requireLastPushApproval),
        right.(dismissStaleReviewsOnPush := prR.dismissStaleReviewsOnPush,
               requireCodeOwnerReview := prR.requireCodeOwnerReview,
               requiredApprovingReviewCount := prR.requiredApprovingReviewCount,
               requiredReviewThreadResolution := prR.requiredReviewThreadResolution,
               requireLastPushApproval := prR.requireLastPushApproval),
        sameChecks)
  {
  }

  /** A pull request rule is equivalent to itself, and changing any one of its
      five fields makes it inequivalent. */
  lemma PullRequestSingleFieldChange(p: RuleSetParameters, count: int, sameChecks: ListEquivalence)
    requires count != p.requiredApprovingReviewCount
    ensures CompareRulesetParameters("pull_request", p, p, sameChecks)
    ensures !CompareRulesetParameters("pull_request", p,
      p.(dismissStaleReviewsOnPush := !p.dismissStaleReviewsOnPush), sameChecks)
    ensures !CompareRulesetParameters("pull_request", p,
      p.(requireCodeOwnerReview := !p.requireCodeOwnerReview), sameChecks)
    ensures !CompareRulesetParameters("pull_request", p,
      p.(requiredApprovingReviewCount := count), sameChecks)
    ensures !CompareRulesetParameters("pull_request", p,
      p.(requiredReviewThreadResolution := !p.requiredReviewThreadResolution), sameChecks)
    ensures !CompareRulesetParameters("pull_request", p,
      p.(requireLastPushApproval := !p.requireLastPushApproval), sameChecks)
  {
  }

  /** Flipping only the strict policy flag makes a status check rule inequivalent. */
  lemma StrictFlagChange(left: RuleSetParameters, right: RuleSetParameters, sameChecks: ListEquivalence)
    ensures !CompareRulesetParameters("required_status_checks", left,
      right.(strictRequiredStatusChecksPolicy := !left.strictRequiredStatusChecksPolicy), sameChecks)
  {
  }
}

=== FILE: scans.dfy ===
/** The bookkeeping shared by the flat directory readers (`ReadRuleSetDirectory`
    and the archive loop of `ReadRepositories`): each entry has an outcome,
    accepted values are stored under a key (a later one replacing an earlier
    one) and rejections append their error. */
module Scans {
  /** What a flat directory reader does with one entry. */
  datatype EntryOutcome<+T, +E> = Skipped | Rejected(error: E) | Accepted(key: string, value: T)

  /** Outcome `i` accepts a value under the key `k`. */
  ghost predicate AcceptedAs<T, E>(os: seq<EntryOutcome<T, E>>, i: int, k: string)
  {
    0 <= i < |os| && os[i].Accepted? && os[i].key == k
  }

  /** Outcome `i` is the last one before position `n` accepting under `k`. */
  ghost predicate LastAcceptedBefore<T, E>(os: seq<EntryOutcome<T, E>>, i: int, k: string, n: int)
  {
    && AcceptedAs(os, i, k)
    && i < n
    && forall j :: i < j < n ==> !AcceptedAs(os, j, k)
  }

  /** The errors of the rejected outcomes, one each, in order. */
  function Rejections<T, E>(os: seq<EntryOutcome<T, E>>): seq<E>
  {
    if |os| == 0 then []
    else Rejections(os[..|os| - 1]) + (if os[|os| - 1].Rejected? then [os[|os| - 1].error] else [])
  }

  /** What the reader's map says after the first `n` outcomes: every accepted
      key is present, and each key holds the value of the last outcome
      accepted under it (and nothing else is present). */
  ghost predicate ScanState<T, E>(os: seq<EntryOutcome<T, E>>, n: int, m: map<string, T>)
  {
    && (forall j, k :: 0 <= j < n && AcceptedAs(os, j, k) ==> k in m)
    && (forall k :: k in m ==> exists j :: LastAcceptedBefore(os, j, k, n) && os[j].value == m[k])
  }

  /** One more outcome adds its error, if it is a rejection, at the end. */
  lemma RejectionsStep<T, E>(os: seq<EntryOutcome<T, E>>, i: int)
    requires 0 <= i < |os|
    ensures Rejections(os[..i + 1]) == Rejections(os[..i]) + (if os[i].Rejected? then [os[i].error] else [])
  {
    assert os[..i + 1][..i] == os[..i];
  }

  /** An accepted value is stored under its key, replacing any earlier one. */
  lemma AcceptStep<T, E>(os: seq<EntryOutcome<T, E>>, i: int, m: map<string, T>)
    requires 0 <= i < |os| && os[i].Accepted?
    requires ScanState(os, i, m)
    ensures ScanState(os, i + 1, m[os[i].key := os[i].value])
  {
    var key := os[i].key;
    var next := m[key := os[i].value];
    assert AcceptedAs(os, i, key);
    forall k | k in next
      ensures exists j :: LastAcceptedBefore(os, j, k, i + 1) && os[j].value == next[k]
    {
      if k == key {
        assert LastAcceptedBefore(os, i, k, i + 1);
      } else {
        var j :| LastAcceptedBefore(os, j, k, i) && os[j].value == m[k];
        assert !AcceptedAs(os, i, k);
        assert LastAcceptedBefore(os, j, k, i + 1);
      }
    }
  }

  /** A skipped or rejected outcome leaves the map as it is. */
  lemma KeepStep<T, E>(os: seq<EntryOutcome<T, E>>, i: int, m: map<string, T>)
    requires 0 <= i < |os| && !os[i].Accepted?
    requires ScanState(os, i, m)
    ensures ScanState(os, i + 1, m)
  {
    forall k | k in m
      ensures exists j :: LastAcceptedBefore(os, j, k, i + 1) && os[j].value == m[k]
    {
      var j :| LastAcceptedBefore(os, j, k, i) && os[j].value == m[k];
      assert !AcceptedAs(os, i, k);
      assert LastAcceptedBefore(os, j, k, i + 1);
    }
  }

  /** Every stored value is the value of some accepted outcome under its key. */
  lemma StoredWasAccepted<T, E>(os: seq<EntryOutcome<T, E>>, m: map<string, T>, k: string)
    requires ScanState(os, |os|, m) && k in m
    ensures exists j :: AcceptedAs(os, j, k) && os[j].value == m[k]
  {
    var j :| LastAcceptedBefore(os, j, k, |os|) && os[j].value == m[k];
  }
}

=== FILE: team_files.dfy ===
/** One repository file met by `recursiveReadRepositories`: read, validated,
    then stored unless its name is already taken. */
module TeamFiles {
  import opened Wrappers
  import opened Paths
  import opened FileSystem
  import opened Entities
  import opened Repositories
  import opened LoaderState

  const TeamFileName := "team.yaml"

  /** An entry the walk reads as a repository definition: a file with
      extension ".yaml" other than the team's own "team.yaml". Hidden files
      are not excluded. */
  predicate IsRepositoryFile(e: Tree)
    ensures IsRepositoryFile(e) <==> e.File? && HasSuffix(e.name, YamlExtension) && e.name != TeamFileName
  {
    YamlSuffixIffExt(e.name);
    e.File? && Ext(e.name) == YamlExtension && e.name != TeamFileName
  }

  /** Where the duplicate error says an earlier definition lives:
      "<archive>/<name>" for an archived one, "<owner>/<name>" otherwise. */
  function ExistingLocation(existing: Repository, name: string, archivedDir: Path): (r: Path)
    ensures Base(r) == name
    ensures existing.owner.None? ==> Dir(r) == archivedDir
    ensures existing.owner.Some? ==> Dir(r) == [existing.owner.value]
  {
    match existing.owner
    case None => Join(archivedDir, name)
    case Some(owner) => Join([owner], name)
  }

  /** Stores a valid team repository unless its name is taken: the first
      definition wins and a later one adds exactly one error naming both
      places. */
  function AddTeamRepository(acc: Scan, repo: Repository, location: Path, teamName: string, archivedDir: Path): (r: Scan)
    ensures r.warnings == acc.warnings
    ensures repo.header.name in acc.repos ==>
      && r.repos == acc.repos
      && |r.errors| == |acc.errors| + 1 && acc.errors <= r.errors
      && r.errors[|acc.errors|] ==
           DefinedTwice(repo.header.name, location,
                        ExistingLocation(acc.repos[repo.header.name], repo.header.name, archivedDir))
    ensures repo.header.name !in acc.repos ==>
      && r.errors == acc.errors
      && r.repos.Keys == acc.repos.Keys + {repo.header.name}
      && (forall k :: k in acc.repos ==> r.repos[k] == acc.repos[k])
      && r.repos[repo.header.name] == repo.(owner := Some(teamName), archived := false)
  {
    var name := repo.header.name;
    if name in acc.repos then
      acc.(errors := acc.errors + [DefinedTwice(name, location, ExistingLocation(acc.repos[name], name, archivedDir))])
    else
      acc.(repos := acc.repos[name := repo.(owner := Some(teamName), archived := false)])
  }

  /** A repository stored by the team walk: valid under its own name, not
      archived, owned. */
  predicate TeamEntry(repo: Repository, k: string, ctx: Context)
  {
    && repo.header.name == k
    && ValidRepository(repo, k, ctx)
    && !repo.archived
    && repo.owner.Some?
  }

  /** The repository's file lies strictly below `dirPath`, and its owner is
      the directory that directly contains it. */
  predicate OwnedBelow(repo: Repository, dirPath: Path)
  {
    dirPath < repo.directoryPath && repo.owner == Some(Base(repo.directoryPath))
  }

  /** A repository stored while walking `dirPath` for `teamName`: either its
      file is directly in `dirPath` and the owner is `teamName`, or it is
      deeper and owned by its own directory. */
  predicate StoredIn(repo: Repository, dirPath: Path, teamName: string)
  {
    || (repo.directoryPath == dirPath && repo.owner == Some(teamName))
    || OwnedBelow(repo, dirPath)
  }

  /** What one step of the walk keeps: no warnings, errors only appended,
      existing entries untouched (first wins), new entries stored in place. */
  predicate WalkStep(acc: Scan, r: Scan, dirPath: Path, teamName: string, ctx: Context)
  {
    && r.warnings == acc.warnings
    && acc.errors <= r.errors
    && (forall k :: k in acc.repos ==> k in r.repos && r.repos[k] == acc.repos[k])
    && (forall k :: k in r.repos && k !in acc.repos ==>
          TeamEntry(r.repos[k], k, ctx) && StoredIn(r.repos[k], dirPath, teamName))
  }

  /** A repository file `name` in `dirPath`: an unreadable or undecodable file
      adds its IO error; a document invalid under the file's stem adds its
      validation error; a valid one whose name is taken adds the duplicate
      error; any other is stored under its stem, owned by `teamName`, not
      archived. Nothing else changes. */
  function ReadTeamFile(name: string, content: Decoded<RepositoryDocument>, dirPath: Path, teamName: string,
                        archivedDir: Path, ctx: Context, acc: Scan): (r: Scan)
    ensures WalkStep(acc, r, dirPath, teamName, ctx)
    ensures !content.Decoded? ==>
      && r.repos == acc.repos
      && r.errors == acc.errors + [RepositoryIo(Load(Join(dirPath, name), content).error)]
    ensures content.Decoded? && !ValidRepository(NewRepository(content.value, Join(dirPath, name)), Stem(name), ctx) ==>
      var path := Join(dirPath, name);
      && Validate(NewRepository(content.value, path), path, ctx).Fail?
      && r.repos == acc.repos
      && r.errors == acc.errors + [RepositoryRejected(Validate(NewRepository(content.value, path), path, ctx).error)]
    ensures content.Decoded? && ValidRepository(NewRepository(content.value, Join(dirPath, name)), Stem(name), ctx) ==>
      var path := Join(dirPath, name);
      var key := Stem(name);
      if key in acc.repos then
        && r.repos == acc.repos
        && r.errors == acc.errors + [DefinedTwice(key, path, ExistingLocation(acc.repos[key], key, archivedDir))]
      else
        && r.errors == acc.errors
        && r.repos == acc.repos[key := NewRepository(content.value, path).(owner := Some(teamName), archived := false)]
  {
    var path := Join(dirPath, name);
    match Load(path, content)
    case Failure(io) => acc.(errors := acc.errors + [RepositoryIo(io)])
    case Success(doc) =>
      var repo := NewRepository(doc, path);
      match Validate(repo, path, ctx)
      case Fail(err) => acc.(errors := acc.errors + [RepositoryRejected(err)])
      case Pass =>
        assert ValidRepository(repo, repo.header.name, ctx);
        AddTeamRepository(acc, repo, path, teamName, archivedDir)
  }

  /** A file whose name starts with '.' but has the extension ".yaml" is a
      repository file all the same: ".x.yaml" is read, and a valid document
      named ".x" in it is stored. */
  lemma HiddenRepositoryFileIsRead(doc: RepositoryDocument, dirPath: Path, teamName: string, archivedDir: Path,
                                   ctx: Context, acc: Scan)
    requires ValidRepository(NewRepository(doc, Join(dirPath, ".x.yaml")), ".x", ctx)
    requires ".x" !in acc.repos
    ensures IsHidden(".x.yaml")
    ensures IsRepositoryFile(File(".x.yaml", Decoded(doc)))
    ensures ".x" in ReadTeamFile(".x.yaml", Decoded(doc), dirPath, teamName, archivedDir, ctx, acc).repos
  {
    assert ".x" + YamlExtension == ".x.yaml";
    ExtOfYamlName(".x");
  }

  /** A file named exactly ".yaml" declares no usable name: its stem is
      empty, so it never validates and is never stored. */
  lemma BareExtensionFileRejected(content: Decoded<RepositoryDocument>, dirPath: Path, teamName: string,
                                  archivedDir: Path, ctx: Context, acc: Scan)
    ensures ReadTeamFile(YamlExtension, content, dirPath, teamName, archivedDir, ctx, acc).repos == acc.repos
    ensures |ReadTeamFile(YamlExtension, content, dirPath, teamName, archivedDir, ctx, acc).errors| == |acc.errors| + 1
  {
    assert "" + YamlExtension == YamlExtension;
    ExtOfYamlName("");
  }
}

=== FILE: team_visits.dfy ===
/** The team walk flattened: the places `recursiveReadRepositories` acts on,
    in the order it acts on them, and a closed description of what acting on
    such a sequence leaves behind. */
module TeamVisits {
  import opened Wrappers
  import opened Paths
  import opened FileSystem
  import opened Entities
  import opened Repositories
  import opened LoaderState
  import opened TeamFiles

  /** One action of the walk: a repository file read in `dirPath` on behalf
      of `teamName`, or a directory that could not be listed. */
  datatype Visit =
    | VisitFile(dirPath: Path, teamName: string, name: string, content: Decoded<RepositoryDocument>)
    | VisitUnlistable(dirPath: Path)

  /** The visits of the walk of directory `dir` at `dirPath`. */
  function DirVisits(dir: Tree, dirPath: Path, teamName: string): seq<Visit>
    requires dir.Directory? && WellFormed(dir)
    decreases dir, |dir.entries| + 1
  {
    if !dir.listable then [VisitUnlistable(dirPath)]
    else EntryVisits(dir, 0, dirPath, teamName)
  }

  /** The visits of the entries of `dir` from `i` on: a visible subdirectory
      contributes its own walk under its own name, a repository file one
      visit, anything else nothing. */
  function EntryVisits(dir: Tree, i: nat, dirPath: Path, teamName: string): seq<Visit>
    requires dir.Directory? && WellFormed(dir) && i <= |dir.entries|
    decreases dir, |dir.entries| - i
  {
    if i == |dir.entries| then []
    else EntryHead(dir, i, dirPath, teamName) + EntryVisits(dir, i + 1, dirPath, teamName)
  }

  /** The visits contributed by entry `i` of `dir` alone. */
  function EntryHead(dir: Tree, i: nat, dirPath: Path, teamName: string): seq<Visit>
    requires dir.Directory? && WellFormed(dir) && i < |dir.entries|
    decreases dir, 0
  {
    var e := dir.entries[i];
    if e.Directory? && !IsHidden(e.name) then DirVisits(e, Join(dirPath, e.name), e.name)
    else if IsRepositoryFile(e) then [VisitFile(dirPath, teamName, e.name, e.content)]
    else []
  }

  /** The visits of the loop over the team root from entry `i` on: every
      directory there, hidden or not, is walked under its own name; files are
      passed over. */
  function RootVisits(teams: seq<Tree>, i: nat, teamDir: Path): seq<Visit>
    requires i <= |teams| && forall j :: 0 <= j < |teams| ==> WellFormed(teams[j])
    decreases |teams| - i
  {
    if i == |teams| then []
    else
      (if teams[i].Directory? then DirVisits(teams[i], Join(teamDir, teams[i].name), teams[i].name) else [])
      + RootVisits(teams, i + 1, teamDir)
  }

  /** Acting on one visit. */
  function VisitStep(acc: Scan, v: Visit, archivedDir: Path, ctx: Context): Scan
  {
    match v
    case VisitUnlistable(dirPath) => acc.(errors := acc.errors + [RepositoryIo(ListFailed(dirPath))])
    case VisitFile(dirPath, teamName, name, content) => ReadTeamFile(name, content, dirPath, teamName, archivedDir, ctx, acc)
  }

  /** Acting on the visits in order. */
  function Replay(acc: Scan, vs: seq<Visit>, archivedDir: Path, ctx: Context): Scan
    decreases |vs|
  {
    if |vs| == 0 then acc
    else VisitStep(Replay(acc, vs[..|vs| - 1], archivedDir, ctx), vs[|vs| - 1], archivedDir, ctx)
  }

  /** Acting on two runs of visits is acting on the first, then the second. */
  lemma {:induction false} ReplayAppend(acc: Scan, a: seq<Visit>, b: seq<Visit>, archivedDir: Path, ctx: Context)
    ensures Replay(acc, a + b, archivedDir, ctx) == Replay(Replay(acc, a, archivedDir, ctx), b, archivedDir, ctx)
    decreases |b|
  {
    if |b| == 0 {
      assert a + b == a;
    } else {
      var b' := b[..|b| - 1];
      assert (a + b)[..|a + b| - 1] == a + b';
      ReplayAppend(acc, a, b', archivedDir, ctx);
    }
  }

  lemma ReplaySingle(acc: Scan, v: Visit, archivedDir: Path, ctx: Context)
    ensures Replay(acc, [v], archivedDir, ctx) == VisitStep(acc, v, archivedDir, ctx)
  {
    assert [v][..0] == [];
  }

  // ---------------------------------------------------------------------------
  // The closed description

  /** Visit `v` offers a document valid under the name `k`. */
  predicate Claims(v: Visit, k: string, ctx: Context)
  {
    && v.VisitFile? && v.content.Decoded? && Stem(v.name) == k
    && ValidRepository(NewRepository(v.content.value, Join(v.dirPath, v.name)), k, ctx)
  }

  /** The repository a claiming visit would store. */
  function VisitedRepository(v: Visit): Repository
    requires v.VisitFile? && v.content.Decoded?
  {
    NewRepository(v.content.value, Join(v.dirPath, v.name)).(owner := Some(v.teamName), archived := false)
  }

  /** The first of the first `n` visits to claim `k`, if any. */
  function FirstClaim(vs: seq<Visit>, n: nat, k: string, ctx: Context): (r: Option<nat>)
    requires n <= |vs|
    ensures r.Some? ==>
      && r.value < n && Claims(vs[r.value], k, ctx)
      && forall j :: 0 <= j < r.value ==> !Claims(vs[j], k, ctx)
    ensures r.None? ==> forall j :: 0 <= j < n ==> !Claims(vs[j], k, ctx)
  {
    if n == 0 then None
    else
      match FirstClaim(vs, n - 1, k, ctx)
      case Some(j) => Some(j)
      case None => if Claims(vs[n - 1], k, ctx) then Some(n - 1) else None
  }

  /** Who holds the name `k` after the first `n` visits, starting from `m`:
      an entry already in `m` keeps it; otherwise the first visit to claim it. */
  function Claimant(m: map<string, Repository>, vs: seq<Visit>, n: nat, k: string, ctx: Context): Option<Repository>
    requires n <= |vs|
  {
    if k in m then Some(m[k])
    else
      match FirstClaim(vs, n, k, ctx)
      case None => None
      case Some(j) => Some(VisitedRepository(vs[j]))
  }

  /** The error visit `j` adds, if any: the listing failure; the read or
      decode failure; the validation error of a document invalid under its
      file's stem; or, for a valid one whose name is already held, the
      duplicate error naming where the holder lives. */
  function VisitError(m: map<string, Repository>, vs: seq<Visit>, j: nat, archivedDir: Path, ctx: Context): seq<RepositoryLoadError>
    requires j < |vs|
  {
    match vs[j]
    case VisitUnlistable(dirPath) => [RepositoryIo(ListFailed(dirPath))]
    case VisitFile(dirPath, _, name, content) =>
      var path := Join(dirPath, name);
      match content
      case Unreadable => [RepositoryIo(ReadFailed(path))]
      case Malformed => [RepositoryIo(DecodeFailed(path))]
      case Decoded(doc) =>
        var repo := NewRepository(doc, path);
        match Validate(repo, path, ctx)
        case Fail(err) => [RepositoryRejected(err)]
        case Pass =>
          match Claimant(m, vs, j, Stem(name), ctx)
          case None => []
          case Some(holder) => [DefinedTwice(Stem(name), path, ExistingLocation(holder, Stem(name), archivedDir))]
  }

  /** The errors of the first `n` visits, in order. */
  function VisitErrors(m: map<string, Repository>, vs: seq<Visit>, n: nat, archivedDir: Path, ctx: Context): seq<RepositoryLoadError>
    requires n <= |vs|
  {
    if n == 0 then [] else VisitErrors(m, vs, n - 1, archivedDir, ctx) + VisitError(m, vs, n - 1, archivedDir, ctx)
  }

  /** `r` is what the first `n` visits leave, starting from `acc`: warnings
      untouched, the visits' errors appended in order, and exactly the held
      names stored, each with its holder. */
  ghost predicate ReplayedUpTo(acc: Scan, vs: seq<Visit>, n: nat, archivedDir: Path, ctx: Context, r: Scan)
    requires n <= |vs|
  {
    && r.warnings == acc.warnings
    && r.errors == acc.errors + VisitErrors(acc.repos, vs, n, archivedDir, ctx)
    && (forall k :: k in r.repos <==> Claimant(acc.repos, vs, n, k, ctx).Some?)
    && (forall k :: k in r.repos ==> r.repos[k] == Claimant(acc.repos, vs, n, k, ctx).value)
  }

  ghost predicate Replayed(acc: Scan, vs: seq<Visit>, archivedDir: Path, ctx: Context, r: Scan)
  {
    ReplayedUpTo(acc, vs, |vs|, archivedDir, ctx, r)
  }

  /** A name has a holder exactly when the map held it or one of the visits
      claims it; a name the map did not hold goes to the first claim. */
  lemma ClaimantHolds(m: map<string, Repository>, vs: seq<Visit>, k: string, ctx: Context)
    ensures Claimant(m, vs, |vs|, k, ctx).Some? <==> k in m || exists j :: 0 <= j < |vs| && Claims(vs[j], k, ctx)
    ensures k !in m && Claimant(m, vs, |vs|, k, ctx).Some? ==>
      exists j :: FirstClaim(vs, |vs|, k, ctx) == Some(j) && Claimant(m, vs, |vs|, k, ctx).value == VisitedRepository(vs[j])
  {
  }

  /** After the visits, a name is stored exactly when it was stored before or
      some visit offers a valid document under it; a new name holds the
      repository of the first such visit. */
  lemma ReplayedKeys(acc: Scan, vs: seq<Visit>, archivedDir: Path, ctx: Context, r: Scan)
    requires Replayed(acc, vs, archivedDir, ctx, r)
    ensures forall k :: k in r.repos <==> k in acc.repos || exists j :: 0 <= j < |vs| && Claims(vs[j], k, ctx)
    ensures forall k :: k in acc.repos ==> r.repos[k] == acc.repos[k]
    ensures forall k :: k in r.repos && k !in acc.repos ==>
      exists j :: FirstClaim(vs, |vs|, k, ctx) == Some(j) && r.repos[k] == VisitedRepository(vs[j])
  {
    forall k ensures k in r.repos <==> k in acc.repos || exists j :: 0 <= j < |vs| && Claims(vs[j], k, ctx) {
      ClaimantHolds(acc.repos, vs, k, ctx);
      assert k in r.repos <==> Claimant(acc.repos, vs, |vs|, k, ctx).Some?;
    }
    forall k | k in r.repos && k !in acc.repos
      ensures exists j :: FirstClaim(vs, |vs|, k, ctx) == Some(j) && r.repos[k] == VisitedRepository(vs[j])
    {
      ClaimantHolds(acc.repos, vs, k, ctx);
      assert r.repos[k] == Claimant(acc.repos, vs, |vs|, k, ctx).value;
    }
  }

  /** One more visit changes the holder of `k` only if nobody held it and the
      visit claims it. */
  lemma ClaimantStep(m: map<string, Repository>, vs: seq<Visit>, n: nat, k: string, ctx: Context)
    requires n < |vs|
    ensures Claimant(m, vs, n + 1, k, ctx) ==
      if Claimant(m, vs, n, k, ctx).Some? then Claimant(m, vs, n, k, ctx)
      else if Claims(vs[n], k, ctx) then Some(VisitedRepository(vs[n]))
      else None
  {
  }

  /** Acting on visit `n` keeps the warnings and appends exactly the error
      the description gives it. */
  lemma VisitStepErrors(acc: Scan, vs: seq<Visit>, n: nat, archivedDir: Path, ctx: Context, r: Scan)
    requires n < |vs|
    requires forall k :: k in r.repos <==> Claimant(acc.repos, vs, n, k, ctx).Some?
    requires forall k :: k in r.repos ==> r.repos[k] == Claimant(acc.repos, vs, n, k, ctx).value
    ensures VisitStep(r, vs[n], archivedDir, ctx).warnings == r.warnings
    ensures VisitStep(r, vs[n], archivedDir, ctx).errors == r.errors + VisitError(acc.repos, vs, n, archivedDir, ctx)
  {
    var v := vs[n];
    if v.VisitFile? && v.content.Decoded? {
      var path := Join(v.dirPath, v.name);
      if Validate(NewRepository(v.content.value, path), path, ctx).Pass? {
        var c := Claimant(acc.repos, vs, n, Stem(v.name), ctx);
        assert c.Some? <==> Stem(v.name) in r.repos;
      }
    }
  }

  /** Acting on visit `n` stores exactly the names held after `n + 1` visits. */
  lemma VisitStepRepos(acc: Scan, vs: seq<Visit>, n: nat, archivedDir: Path, ctx: Context, r: Scan)
    requires n < |vs|
    requires forall k :: k in r.repos <==> Claimant(acc.repos, vs, n, k, ctx).Some?
    requires forall k :: k in r.repos ==> r.repos[k] == Claimant(acc.repos, vs, n, k, ctx).value
    ensures var next := VisitStep(r, vs[n], archivedDir, ctx);
      && (forall k :: k in next.repos <==> Claimant(acc.repos, vs, n + 1, k, ctx).Some?)
      && (forall k :: k in next.repos ==> next.repos[k] == Claimant(acc.repos, vs, n + 1, k, ctx).value)
  {
    var v := vs[n];
    var next := VisitStep(r, v, archivedDir, ctx);
    forall k
      ensures k in next.repos <==> Claimant(acc.repos, vs, n + 1, k, ctx).Some?
      ensures k in next.repos ==> next.repos[k] == Claimant(acc.repos, vs, n + 1, k, ctx).value
    {
      ClaimantStep(acc.repos, vs, n, k, ctx);
      assert k in r.repos <==> Claimant(acc.repos, vs, n, k, ctx).Some?;
      if Claims(v, k, ctx) {
        assert k == Stem(v.name);
      }
    }
  }

  /** Acting on visit `n` extends the description from `n` to `n + 1` visits. */
  lemma {:induction false} ReplayStep(acc: Scan, vs: seq<Visit>, n: nat, archivedDir: Path, ctx: Context, r: Scan)
    requires n < |vs| && ReplayedUpTo(acc, vs, n, archivedDir, ctx, r)
    ensures ReplayedUpTo(acc, vs, n + 1, archivedDir, ctx, VisitStep(r, vs[n], archivedDir, ctx))
  {
    var next := VisitStep(r, vs[n], archivedDir, ctx);
    VisitStepErrors(acc, vs, n, archivedDir, ctx, r);
    VisitStepRepos(acc, vs, n, archivedDir, ctx, r);
    var before := VisitErrors(acc.repos, vs, n, archivedDir, ctx);
    var added := VisitError(acc.repos, vs, n, archivedDir, ctx);
    assert VisitErrors(acc.repos, vs, n + 1, archivedDir, ctx) == before + added;
    assert next.errors == (acc.errors + before) + added;
  }

  lemma {:induction false} ReplayPrefix(acc: Scan, vs: seq<Visit>, n: nat, archivedDir: Path, ctx: Context)
    requires n <= |vs|
    ensures ReplayedUpTo(acc, vs, n, archivedDir, ctx, Replay(acc, vs[..n], archivedDir, ctx))
  {
    if n == 0 {
      assert vs[..0] == [];
      forall k ensures k in acc.repos <==> Claimant(acc.repos, vs, 0, k, ctx).Some? {
      }
    } else {
      ReplayPrefix(acc, vs, n - 1, archivedDir, ctx);
      assert vs[..n][..n - 1] == vs[..n - 1];
      ReplayStep(acc, vs, n - 1, archivedDir, ctx, Replay(acc, vs[..n - 1], archivedDir, ctx));
    }
  }

  /** Acting on any sequence of visits leaves exactly what the closed
      description says: each name held first by the map it started from,
      otherwise by the first visit offering a valid document under it; one
      error per failing visit in order. */
  lemma ReplaySpec(acc: Scan, vs: seq<Visit>, archivedDir: Path, ctx: Context)
    ensures Replayed(acc, vs, archivedDir, ctx, Replay(acc, vs, archivedDir, ctx))
  {
    ReplayPrefix(acc, vs, |vs|, archivedDir, ctx);
    assert vs[..|vs|] == vs;
  }
}

=== FILE: team_walk.dfy ===
/** Phase two of `ReadRepositories`: `recursiveReadRepositories` over each
    team directory, sharing one map with the archive phase. */
module TeamWalk {
  import opened Wrappers
  import opened Paths
  import opened FileSystem
  import opened Entities
  import opened Repositories
  import opened LoaderState
  import opened TeamFiles
  import opened TeamVisits

  lemma WalkStepTrans(a: Scan, b: Scan, c: Scan, dirPath: Path, teamName: string, ctx: Context)
    requires WalkStep(a, b, dirPath, teamName, ctx) && WalkStep(b, c, dirPath, teamName, ctx)
    ensures WalkStep(a, c, dirPath, teamName, ctx)
  {
    assert a.errors <= b.errors <= c.errors;
  }

  /** What the walk of a subdirectory `name` stores is, seen from its parent,
      stored strictly below the parent and owned by its own directory. */
  lemma {:induction false} WalkStepOfSubdirectory(a: Scan, b: Scan, dirPath: Path, name: string, teamName: string, ctx: Context)
    requires WalkStep(a, b, Join(dirPath, name), name, ctx)
    ensures WalkStep(a, b, dirPath, teamName, ctx)
  {
    var sub := Join(dirPath, name);
    forall k | k in b.repos && k !in a.repos
      ensures StoredIn(b.repos[k], dirPath, teamName)
    {
      var dp := b.repos[k].directoryPath;
      if dp == sub {
        assert Base(dp) == name;
      }
      assert dirPath < sub <= dp;
    }
  }

  /** `recursiveReadRepositories`: a directory that cannot be listed adds
      exactly its listing error; otherwise each entry is visited in order.
      The result is the replay of the directory's visits. */
  function WalkTeamDir(dir: Tree, dirPath: Path, teamName: string, archivedDir: Path, ctx: Context, acc: Scan): (r: Scan)
    requires dir.Directory? && WellFormed(dir)
    ensures WalkStep(acc, r, dirPath, teamName, ctx)
    ensures !dir.listable ==> r == acc.(errors := acc.errors + [RepositoryIo(ListFailed(dirPath))])
    ensures r == Replay(acc, DirVisits(dir, dirPath, teamName), archivedDir, ctx)
    decreases dir, |dir.entries| + 1
  {
    if !dir.listable then
      ReplaySingle(acc, VisitUnlistable(dirPath), archivedDir, ctx);
      acc.(errors := acc.errors + [RepositoryIo(ListFailed(dirPath))])
    else WalkTeamEntries(dir, 0, dirPath, teamName, archivedDir, ctx, acc)
  }

  /** The loop of `recursiveReadRepositories` from entry `i` on: visible
      subdirectories are walked with their own name as team name; files with
      extension ".yaml" other than "team.yaml" are read; the rest is skipped. */
  function WalkTeamEntries(dir: Tree, i: nat, dirPath: Path, teamName: string, archivedDir: Path,
                           ctx: Context, acc: Scan): (r: Scan)
    requires dir.Directory? && dir.listable && WellFormed(dir) && i <= |dir.entries|
    ensures WalkStep(acc, r, dirPath, teamName, ctx)
    ensures r == Replay(acc, EntryVisits(dir, i, dirPath, teamName), archivedDir, ctx)
    decreases dir, |dir.entries| - i
  {
    if i == |dir.entries| then acc
    else
      var e := dir.entries[i];
      var head := EntryHead(dir, i, dirPath, teamName);
      var next :=
        if e.Directory? && !IsHidden(e.name) then
          var sub := WalkTeamDir(e, Join(dirPath, e.name), e.name, archivedDir, ctx, acc);
          WalkStepOfSubdirectory(acc, sub, dirPath, e.name, teamName, ctx);
          sub
        else if IsRepositoryFile(e) then
          ReplaySingle(acc, VisitFile(dirPath, teamName, e.name, e.content), archivedDir, ctx);
          ReadTeamFile(e.name, e.content, dirPath, teamName, archivedDir, ctx, acc)
        else acc;
      assert next == Replay(acc, head, archivedDir, ctx);
      var r := WalkTeamEntries(dir, i + 1, dirPath, teamName, archivedDir, ctx, next);
      WalkStepTrans(acc, next, r, dirPath, teamName, ctx);
      ReplayAppend(acc, head, EntryVisits(dir, i + 1, dirPath, teamName), archivedDir, ctx);
      r
  }

  /** The walk passes over hidden subdirectories, "team.yaml", and files whose
      extension is not ".yaml" without touching the state. */
  lemma SkippedTeamEntry(dir: Tree, i: nat, dirPath: Path, teamName: string, archivedDir: Path, ctx: Context, acc: Scan)
    requires dir.Directory? && dir.listable && WellFormed(dir) && i < |dir.entries|
    requires var e := dir.entries[i];
      || (e.Directory? && IsHidden(e.name))
      || (e.File? && (Ext(e.name) != YamlExtension || e.name == TeamFileName))
    ensures WalkTeamEntries(dir, i, dirPath, teamName, archivedDir, ctx, acc)
         == WalkTeamEntries(dir, i + 1, dirPath, teamName, archivedDir, ctx, acc)
  {
  }

  /** The loop over the team root: every directory directly under it is
      walked with its name as team name; files directly under it are ignored.
      New entries are team repositories stored below the root. */
  function WalkTeams(teams: seq<Tree>, i: nat, teamDir: Path, archivedDir: Path, ctx: Context, acc: Scan): (r: Scan)
    requires i <= |teams| && forall j :: 0 <= j < |teams| ==> WellFormed(teams[j])
    ensures r == Replay(acc, RootVisits(teams, i, teamDir), archivedDir, ctx)
    ensures r.warnings == acc.warnings
    ensures acc.errors <= r.errors
    ensures forall k :: k in acc.repos ==> k in r.repos && r.repos[k] == acc.repos[k]
    ensures forall k :: k in r.repos && k !in acc.repos ==>
      TeamEntry(r.repos[k], k, ctx) && OwnedBelow(r.repos[k], teamDir)
    decreases |teams| - i
  {
    if i == |teams| then acc
    else
      var e := teams[i];
      var head := if e.Directory? then DirVisits(e, Join(teamDir, e.name), e.name) else [];
      var next :=
        if e.Directory? then
          var sub := WalkTeamDir(e, Join(teamDir, e.name), e.name, archivedDir, ctx, acc);
          WalkStepOfSubdirectory(acc, sub, teamDir, e.name, "", ctx);
          sub
        else acc;
      assert WalkStep(acc, next, teamDir, "", ctx);
      var r := WalkTeams(teams, i + 1, teamDir, archivedDir, ctx, next);
      assert forall k :: k in next.repos && k !in acc.repos ==> next.repos[k].directoryPath != teamDir;
      ReplayAppend(acc, head, RootVisits(teams, i + 1, teamDir), archivedDir, ctx);
      r
  }

  /** A file directly under the team root belongs to no team and is ignored. */
  lemma TeamRootFileIgnored(teams: seq<Tree>, i: nat, teamDir: Path, archivedDir: Path, ctx: Context, acc: Scan)
    requires i < |teams| && forall j :: 0 <= j < |teams| ==> WellFormed(teams[j])
    requires teams[i].File?
    ensures WalkTeams(teams, i, teamDir, archivedDir, ctx, acc) == WalkTeams(teams, i + 1, teamDir, archivedDir, ctx, acc)
  {
  }

  /** The directory the walk reaches through entry `i` of a listed directory
      is what a lookup of its path finds: the node walked is the one
      `fs.ReadDir` of the joined path would list, as long as names in a
      directory are distinct. */
  lemma WalkedNodeIsFound(fs: Tree, dirPath: Path, i: nat)
    requires Stat(fs, dirPath).Present? && Listable(Stat(fs, dirPath).node)
    requires var entries := Stat(fs, dirPath).node.entries;
      i < |entries| && forall j :: 0 <= j < i ==> entries[j].name != entries[i].name
    ensures var e := Stat(fs, dirPath).node.entries[i];
      Stat(fs, Join(dirPath, e.name)) == Present(e)
      && (Listable(e) ==> ReadDir(fs, Join(dirPath, e.name)) == Some(e.entries))
  {
    var entries := Stat(fs, dirPath).node.entries;
    StatChild(fs, dirPath, entries[i].name, i);
  }
}

=== FILE: wrappers.dfy ===
/** Failure-compatible result types shared by every module of the model. */
module Wrappers {

  /** An optional value; `None` plays the role of Go's nil. */
  datatype Option<+T> = None | Some(value: T)

  /** The outcome of a Go function returning only `error`: nil is `Pass`. */
  datatype Outcome<+E> = Pass | Fail(error: E)

  /** The outcome of a Go function returning `(value, error)`. */
  datatype Result<+T, +E> = Success(value: T) | Failure(error: E)
}
